=== FILE: README.md ===
# Greenely for Home Assistant — a Dafny model of the client and sensors

This project models the core of the Greenely custom component for Home
Assistant:

- `GreenelyApi` (`custom_components/greenely/api.py`), the client of the
  Greenely cloud API. It covers the session (check the token, log in, look up
  the facility) and the four query methods with the URLs they build.
- The sensor platform (`custom_components/greenely/sensor.py`). It covers
  platform setup and the update logic of the prices, usage and sold sensors.

Nothing is sent over a network. Each HTTP exchange is a parameter:

- the reply (status code and decoded body) that the server gives;
- the request the code sends, returned as data, so contracts can say what
  was sent, to which URL, with which headers.

`datetime.now()`/`datetime.today()` also become a `today` parameter. The
session check a sensor update starts with becomes an `authorized` flag.

Python's dates run from year 1 to year 9999. Date arithmetic that leaves that
range raises `OverflowError`, and the model keeps this:

- `Dates` defines the proleptic Gregorian calendar.
- `Dates.Ordinal` (Python's `toordinal`) is the reference every day shift is
  proved against.
- Shifts return `None` exactly where Python raises.
- Python's other exceptions on this path are carried by `Base.Result`:
  - `KeyError` and `TypeError` from `body["data"]`;
  - `IndexError` from `data[0]` on an empty facility list.

Modules, one per concern:

| module | models |
|---|---|
| `Base` | `Option`, the raised exceptions, `Result` |
| `Dates` | the calendar, `toordinal`, `± timedelta(days=n)`, the next-month computation |
| `Text` | `str(n)` of a natural number, `strftime("%m")`/`"%d"` zero padding, and a digit parser used to prove that those renderings read back |
| `Json` | decoded bodies and `value[key]` |
| `Urls` | the query URLs of `api.py` and the date text inside them |
| `Api` | `GreenelyApi`: session state, login, check, facility lookup, queries |
| `Shaping` | the "filter into a list" loops shared by the sensors, and the sensor readings |
| `PricesSensor` | spot-price buckets for yesterday/today/tomorrow; the current-month price list |
| `UsageSensor` | the per-day usage loop, `make_attribute`, state and hourly list |
| `SoldSensor` | `make_attribute`: the `sold_data` list and the total |
| `Setup` | `async_setup_platform`: options, offset clamp, the sensors created |

Where this README describes behaviour it follows the code. In three places
that differs from what one might expect of the integration:

- **Facility lookup.** The lookup does not actually select the primary
  facility (see Findings).
- **Usage window.** The usage sensor queries one day at a time. It does not
  query a date range.
- **Sold history.** The sold sensor's `make_attribute` simply lists every
  entry of the reply. No month-completion logic is applied.

## Model

| member | source | states |
|---|---|---|
| Dates.DaysInMonth | custom_components/greenely/api.py:53-54 | every month has 28 to 31 days, and only February has fewer than 30 |
| Dates.OrdinalOrder | custom_components/greenely/api.py:53-54 | calendar order of two valid dates coincides with the order of their day numbers |
| Dates.OrdinalInjective | custom_components/greenely/api.py:53-54 | two valid dates with the same day number are the same date |
| Dates.OrdinalRange | custom_components/greenely/api.py:53-54 | every valid date's day number lies between 1 and the day number of 9999-12-31 |
| Dates.OrdinalEnds | custom_components/greenely/api.py:53-54 | day number 1 is exactly 0001-01-01 and the largest day number is exactly 9999-12-31 |
| Dates.NextDay | custom_components/greenely/api.py:54 | adding one day succeeds exactly when the date is not 9999-12-31, and then gives a valid date whose day number is one more |
| Dates.PrevDay | custom_components/greenely/api.py:53 | subtracting one day succeeds exactly when the date is not 0001-01-01, and then gives a valid date whose day number is one less |
| Dates.AddDays | custom_components/greenely/sensor.py:243 | `date ± timedelta(days=n)` succeeds exactly when the shifted day number stays within the supported range, and then moves the day number by exactly n |
| Dates.AddDaysExact | custom_components/greenely/sensor.py:255-256 | any valid date whose day number is n days after the start date is the result of the shift |
| Dates.FirstOfMonth | custom_components/greenely/api.py:31 | `replace(day=1)` keeps year and month and lies day−1 days earlier |
| Dates.FirstOfNextMonthSpan | custom_components/greenely/api.py:31 | the first of next month exists unless the date is in December 9999; it is one month length after the first of this month, and after December it is January 1 of the next year |
| Dates.NextMonthByDays | custom_components/greenely/api.py:31 | the "+32 days, then replace(day=1)" computation yields a valid first-of-month date when it succeeds |
| Dates.NextMonthByDaysIsNextMonth | custom_components/greenely/api.py:31 | "+32 days, then replace(day=1)" from the first of the month is always the calendar's first of next month, raising only in December 9999 |
| Text.NatToString | custom_components/greenely/api.py:32 | `str(n)` of a natural number is a non-empty run of decimal digits |
| Text.IntToString | custom_components/greenely/api.py:134 | `str(i)` is non-empty and is all digits exactly when i is not negative; for i >= 0 it reads back as i, and for a negative i it is '-' followed by digits that read back as -i |
| Text.Pad2 | custom_components/greenely/api.py:32 | `strftime("%m")`/`"%d"` gives exactly two digits |
| Text.NatToStringRoundTrip | custom_components/greenely/api.py:32 | reading back the digits of `str(n)` gives n |
| Text.NatToStringCanonical | custom_components/greenely/api.py:95 | `str(n)` starts with '0' only for n = 0, so it carries no padding |
| Text.Pad2RoundTrip | custom_components/greenely/api.py:59 | reading back the two padded digits gives the number |
| Text.Pad2VersusStr | custom_components/greenely/api.py:95 | the field-level step behind Urls.DateTextPadding: padded and unpadded day text agree exactly for days 10 and up; below 10 the padded text has one leading '0' |
| Urls.ResolutionFor | custom_components/greenely/api.py:105 | the resolution is hourly exactly when hourly display is requested |
| Urls.DateTextRoundTrip | custom_components/greenely/api.py:89-104 | the `year-month-day` text of a valid date parses back to that date, padded or unpadded day alike |
| Urls.DateTextFields | custom_components/greenely/api.py:89-104 | splitting the date text at '-' gives exactly the year, the padded month and the day fields |
| Urls.DateTextPadding | custom_components/greenely/api.py:95 | the unpadded day text differs from the padded one exactly on days 1–9, where it is one character shorter |
| Urls.PriceDataUrl | custom_components/greenely/api.py:29-41 | the price-data URL exists unless today is in December 9999 |
| Urls.SpotPriceUrl | custom_components/greenely/api.py:51-78 | the spot-price URL exists exactly when both yesterday and today+2 are dates Python can represent |
| Urls.PriceDataQuery | custom_components/greenely/api.py:29-41 | the price-data query runs from the padded first of this month to the padded first of next month, one month length apart |
| Urls.SpotPriceQuery | custom_components/greenely/api.py:51-78 | the spot-price query runs from today−1 to today+2 by the calendar, padded, at hourly resolution |
| Urls.UsageUrl | custom_components/greenely/api.py:88-114 | the usage query asks for exactly the caller's dates, with the day unpadded, at the resolution the flag selects |
| Urls.ProducedUrl | custom_components/greenely/api.py:140-166 | the produced-electricity query asks for exactly the caller's dates, with the day padded, at the resolution the flag selects |
| Json.Lookup | custom_components/greenely/api.py:46 | `value[key]` succeeds exactly on a dict holding the key, and then returns its value; it raises KeyError on a dict without the key and TypeError on anything else |
| Api.Receive | custom_components/greenely/api.py:42-49 | the reply handling every query shares: a non-200 reply gives `{}`; a 200 reply gives the body, or its `"data"` member when asked to unwrap; it raises only on a 200 whose body lacks `"data"` (KeyError for a dict, TypeError otherwise) |
| Api.KeyText | custom_components/greenely/api.py:134 | `str(id)` of a facility id: a numeric id becomes decimal text that reads back as the id (after a '-' for a negative id), a textual id is kept unchanged |
| Api.NewClient | custom_components/greenely/api.py:13-27 | a new client keeps the credentials, holds an empty token and the "primary" placeholder, and its Authorization header equals the stored token |
| Api.GetPriceData | custom_components/greenely/api.py:29-49 | sends one GET to the price-data URL with the client's headers; non-200 gives `{}`, 200 gives `body["data"]`; in December 9999 it raises OverflowError before sending |
| Api.GetSpotPrice | custom_components/greenely/api.py:51-86 | sends one GET to the spot-price URL; non-200 gives `{}`, 200 gives the whole body; it raises OverflowError without sending when yesterday or today+2 is out of range |
| Api.GetUsage | custom_components/greenely/api.py:88-122 | sends one GET to the usage URL; non-200 gives `{}`, 200 gives `body["data"]` |
| Api.GetProducedElectricity | custom_components/greenely/api.py:140-180 | sends one GET to the produced-electricity URL; non-200 gives `{}`, 200 gives `body["data"]` |
| Api.FailedQueriesReturnEmpty | custom_components/greenely/api.py:115-122 | a non-200 reply never raises in any query method that sent its request, and a 200 usage reply raises exactly when the body has no "data" member |
| Api.FirstPrimary | custom_components/greenely/api.py:128 | finds nothing exactly when no facility is flagged primary, and otherwise returns the first facility of the list flagged primary |
| Api.GetFacilityIdAsWritten | custom_components/greenely/api.py:124-138 | the literal lookup stores and returns the id of the first facility on 200, raises IndexError on an empty list, and returns None on other statuses |
| Api.AsWrittenLookupIgnoresPrimary | custom_components/greenely/api.py:128-134 | for the list [id 1 not primary, id 2 primary] the literal lookup stores "1", not the primary facility's id |
| Api.GetFacilityId | custom_components/greenely/api.py:124-138 | on 200 with a non-empty list it stores and returns the id of the first primary facility, or of the first facility when none is primary; an empty list raises IndexError; other statuses change nothing; the credentials, token and headers are kept |
| Api.GetFacilityIdPolicy | custom_components/greenely/api.py:128-133 | when exactly one facility is primary, the lookup resolves to that facility's id |
| Api.Login | custom_components/greenely/api.py:193-212 | posts the credentials; on 200 it stores "JWT " + token as the Authorization header and keeps the credentials; while the facility id is the placeholder it runs the lookup as written, which stores the first listed facility's id, and it raises IndexError exactly when that lookup gets an empty 200 list; any other status changes nothing and returns False |
| Api.CheckAuth | custom_components/greenely/api.py:182-191 | a 200 from the check endpoint returns True and changes nothing; otherwise the result and the client are those of one login |
| Api.CheckAuthLogsInAtMostOnce | custom_components/greenely/api.py:182-191 | a session check posts the login exactly once when the check fails and never when it succeeds |
| Api.SessionStaysConsistent | custom_components/greenely/api.py:200-203 | login, check and facility lookup all keep the Authorization header equal to the stored token |
| Api.ResolvedFacilityIsKept | custom_components/greenely/api.py:205-208 | once the facility id is resolved, a session check never requests the facility list and never changes the id |
| Shaping.FilterMembership | custom_components/greenely/sensor.py:185-193 | an element is in a filtered list exactly when it is in the input and satisfies the filter |
| Shaping.FilterAppend | custom_components/greenely/sensor.py:148-161 | filtering a concatenation is the concatenation of the filtered parts, so filtering preserves input order |
| Shaping.ReadingOf | custom_components/greenely/sensor.py:273-275 | a total renders as the zero reading exactly when it is 0, and otherwise as the amount itself |
| PricesSensor.PlacePoint | custom_components/greenely/sensor.py:152-161 | one loop turn appends a priced point to exactly the bucket of its day; it raises OverflowError exactly when comparing the point reaches a neighbour day that does not exist |
| PricesSensor.PlacePoints | custom_components/greenely/sensor.py:151-161 | the loop succeeds exactly when no point reaches a missing neighbour, and then each bucket is the in-order list of the priced points of its day |
| PricesSensor.BucketSpotPrices | custom_components/greenely/sensor.py:147-161 | today's, tomorrow's and yesterday's buckets are the in-order priced points dated today, today+1 and today−1; the loop raises OverflowError exactly when some point meets a missing neighbour day |
| PricesSensor.BucketMembership | custom_components/greenely/sensor.py:153-161 | a point is in a bucket exactly when it is priced and dated that bucket's day, and no point is in two buckets |
| PricesSensor.UpdateSpotPrices | custom_components/greenely/sensor.py:144-166 | without a valid session or with an empty reply nothing changes; otherwise the three bucket attributes are all replaced or the update raises; the month attribute is untouched |
| PricesSensor.MakeDataAttribute | custom_components/greenely/sensor.py:181-194 | the current-month attribute holds exactly the priced points, in order; an empty response changes nothing |
| UsageSensor.HourlyEntries | custom_components/greenely/sensor.py:260-268 | the hourly list has one entry per point, each rendered from the point at the same position |
| UsageSensor.ScanPoints | custom_components/greenely/sensor.py:260-270 | the daily total is the sum of the present usages, and the hourly list is collected for every point exactly when collection is on |
| UsageSensor.ReferenceDaysInRange | custom_components/greenely/sensor.py:255-256 | yesterday and the hourly day exist exactly when today's day number exceeds both 1 and the offset |
| UsageSensor.ReferenceDays | custom_components/greenely/sensor.py:255-256 | computes yesterday and today−offset, raising OverflowError exactly when either would fall before year 1 |
| UsageSensor.MakeAttribute | custom_components/greenely/sensor.py:253-279 | returns the date and total exactly when the total is non-zero; sets the state only when the date is yesterday and the hourly list only when it is the hourly day with hourly display on; raises OverflowError exactly when a reference day is out of range |
| UsageSensor.QueryDay | custom_components/greenely/sensor.py:244-248 | one loop turn: an empty reply changes nothing, and a non-empty one applies `make_attribute` and appends its non-empty result |
| UsageSensor.UpdateStep | custom_components/greenely/sensor.py:242-248 | one loop turn extends the progress invariant by the next queried day, or raises OverflowError only where the whole update cannot succeed |
| UsageSensor.Update | custom_components/greenely/sensor.py:235-251 | without a session nothing is queried or changed; otherwise it queries today, today−1, … in order; it succeeds exactly when the window and the needed reference days exist; `days` holds the non-empty day totals in query order; the state is yesterday's total and the hourly list is the hourly day's points, when those days returned data |
| UsageSensor.WindowAt | custom_components/greenely/sensor.py:243 | the k-th queried date is `today - timedelta(days=k)` |
| UsageSensor.WindowOrdinal | custom_components/greenely/sensor.py:242-243 | the k-th queried date is valid and lies exactly k days before today |
| SoldSensor.EntryOf | custom_components/greenely/sensor.py:333-340 | an entry shapes successfully exactly when it is a dict with usage, localtime and is_complete, a textual localtime and a numeric usage; it keeps the date and the completeness flag and renders the usage as a reading of the same Wh value; the error follows Python's evaluation order: TypeError for a non-dict, KeyError for a missing usage or localtime, TypeError for a non-text localtime or non-numeric usage, then KeyError for a missing is_complete |
| SoldSensor.ShapeAllPointwise | custom_components/greenely/sensor.py:332-344 | `sold_data` succeeds exactly when every entry does, and then has one month per entry in order; a failure is some entry's error |
| SoldSensor.TotalSoldAppend | custom_components/greenely/sensor.py:342 | the running total of a concatenation is the sum of the parts' totals |
| SoldSensor.MakeSoldAttribute | custom_components/greenely/sensor.py:328-346 | on success `sold_data` is the shaped list and the state is the total of its usages; on failure it raises the first failing entry's error |
| SoldSensor.ShapeAllPrefixError | custom_components/greenely/sensor.py:332-344 | once a prefix of the entries fails, every longer prefix fails with the same error |
| Setup.ClampHourlyOffset | custom_components/greenely/sensor.py:77-79 | the clamped offset is the smaller of offset and usage days, so it never exceeds either, and it stays below usage days exactly when the offset did |
| Setup.Sensors | custom_components/greenely/sensor.py:85-92 | each sensor is created exactly when its option is on, in the order usage, sold, prices |
| Setup.NewUsageSensor | custom_components/greenely/sensor.py:196-208 | a new usage sensor keeps the configuration, with the offset clamped, state 0 and no attributes |
| Setup.HourlyDayInsideWindow | custom_components/greenely/sensor.py:77-79 | a freshly created usage sensor can publish an hourly list only when its configured offset is below usage days |

## Left out

- HTTP transport, timeouts, logging and `response.text` are not modelled. Replies are parameters: a status code and an already decoded body.
- The bodies of the login and facility replies are typed. A missing `"jwt"`, `"data"`, `"id"` or `"is_primary"` member in those bodies (a `KeyError` in Python) is not modelled.
- `datetime.strptime`/`strftime` with the user's date and time formats, `utcfromtimestamp`, and the divisions by 100 and 1000 that render prices and usages as text are not modelled. An attribute entry is represented by the point it is rendered from, and a reading by its integer Wh value.
- PricesSensor.BucketSpotPrices: a spot-price body without `"data"`, a point without `"localtime"` or `"price"` (each a `KeyError`) and a `localtime` that `strptime(..., '%Y-%m-%d %H:%M')` rejects (a `ValueError`) are not modelled. A point is taken with its date already parsed and its price as `None` or a number, because parsing and dict access on the reply are outside the model.
- PricesSensor.UpdateSpotPrices: raises only the `OverflowError` of the neighbour days, for the same reason as `PricesSensor.BucketSpotPrices`.
- PricesSensor.MakeDataAttribute: a truthy response without `"points"` (a `TypeError` from iterating `None`) and a point without the price field `cost_in_kr` or without `"timestamp"` (each a `KeyError`, sensor.py:186 and 189) are not modelled. The response is taken as its list of points, each with its price already selected.
- SoldSensor.EntryOf: a `localtime` text that `strptime` rejects (a `ValueError`) is not modelled, because parsing is not modelled. Such text is kept as it is.
- sensor.py imports from `const.py` twelve names that `const.py` does not define (sensor.py:14-30): `SENSOR_USAGE_NAME`, the ten `CONF_*` option keys and `MONITORED_CONDITIONS_DEFAULT`. As shipped, importing the sensor platform therefore raises `ImportError`, and no line of sensor.py runs. `PricesSensor`, `UsageSensor`, `SoldSensor` and `Setup` model sensor.py as if those imports resolved. The option keys only name configuration entries, and the model's `Setup.Config` stands for their values.
- The price-data half of `GreenelyPricesSensor.update` (sensor.py:133-143) is not modelled. It covers `current_month_value` (lines 133-136) and the loop over `MONITORED_CONDITIONS_DEFAULT` (lines 137-143). That half sits outside the spot-price bucketing this model covers. Its loop also depends on the contents of a constant `const.py` does not define. `make_data_attribute`, which the loop calls, is modelled.
- `GreenelySoldSensor.update` is not modelled. It calls `get_sold`, which `GreenelyApi` does not define. Only its `make_attribute` is modelled.
- sensor.py does not import `json`. `make_attribute` nevertheless uses `json.loads(json.dumps(...))`, which is taken here as the identity on the decoded reply.
- The usage update's call to the client passes three strings (`str(year)`, `str(month)`, `str(day)`) where `get_usage` expects two dates and a flag, and `.year` on a string raises. The model takes the reply for each queried day from a `fetch` parameter instead. `Api.GetUsage` models `get_usage` with the arguments it declares.
- UsageSensor.MakeAttribute: a point without a `"usage"` key, a point without `"timestamp"` on the hourly day (sensor.py:264), and a reply without `"points"` raise in Python and are not modelled. A point's usage is `None` or a number.
- PricesSensor.UpdateSpotPrices and UsageSensor.Update: the `authorized` flag stands for a `check_auth` that returned. A `check_auth` that raises (the `IndexError` of an empty facility list, reached through api.py:188, 206 and 133) makes `update` raise at sensor.py:132 (prices) or sensor.py:237 (usage), and the sensor is left unchanged; the sensor updates do not model that path. `Api.CheckAuth` and `Api.Login` model the raise itself.
- The config flow, services, and the `__init__` component setup are not modelled. Neither are entity properties (name, icon, unit) or Home Assistant's scheduling of updates.
- Floating-point prices and usages are not modelled. Amounts are integers, as the API sends them.

## Findings

| source | as written | input that shows it | evidently intended | confidence | as-written member | corrected member |
|---|---|---|---|---|---|---|
| custom_components/greenely/api.py:128-134 | the primary facility is looked up, and the fallback to `data[0]` is assigned, but the stored id is always `data[0]["id"]` | a facility list `[{"id": 1, "is_primary": false}, {"id": 2, "is_primary": true}]` stores "1" | store the id of the facility found: the first primary one, else the first in the list | high, not executed | Api.GetFacilityIdAsWritten (counterexample: Api.AsWrittenLookupIgnoresPrimary) | Api.GetFacilityId (property: Api.GetFacilityIdPolicy) |

One more property of the code is stated without counting as a finding. `async_setup_platform` lowers `hourly_offset_days` only when it exceeds `usage_days`, so the offset may equal `usage_days`. That day lies outside the queried window, so such a sensor never publishes an hourly list. `Setup.HourlyDayInsideWindow` states this.

=== FILE: api.dfy ===
/** The Greenely API client (`GreenelyApi` in `custom_components/greenely/api.py`).

    The client's mutable state (`_jwt`, `_headers`, `_facility_id`) is the
    immutable record `Client`; each method is a function from a client, the
    injected "today" and the abstract HTTP replies to the requests it issues,
    to the client afterwards, the requests it sent (in order) and what it
    returned or raised. */
module Api {
  import opened Base
  import opened Dates
  import opened Text
  import opened Json
  import opened Urls

  const CheckAuthUrl := "https://api2.greenely.com/v1/checkauth"
  const LoginUrl := "https://api2.greenely.com/v1/login"

  /** `httpx.codes.ok`. */
  const HttpOk := 200

  /** The facility id a client starts with, meaning "not looked up yet". */
  const PrimarySentinel := "primary"

  /** The scheme tag put in front of every stored token. */
  const JwtScheme := "JWT "

  const AuthorizationHeader := "Authorization"

  /** The headers that never change. */
  const FixedHeaders: map<string, string> := map[
    "Accept-Language" := "sv-SE",
    "User-Agent" := "Android 2 111",
    "Content-Type" := "application/json; charset=utf-8"
  ]

  datatype Client = Client(
    email: string,
    password: string,
    jwt: string,
    headers: map<string, string>,
    facilityId: string)

  /** The session invariant: the Authorization header carries the stored
      token, the other headers are the fixed ones, and a stored token is
      either the initial empty one or starts with the scheme tag. */
  predicate Consistent(c: Client) {
    && c.headers == FixedHeaders[AuthorizationHeader := c.jwt]
    && (c.jwt == "" || JwtScheme <= c.jwt)
  }

  /** `GreenelyApi(email, password)`. */
  function NewClient(email: string, password: string): (c: Client)
    ensures Consistent(c)
    ensures c.email == email && c.password == password
    ensures c.jwt == "" && c.facilityId == PrimarySentinel
  {
    Client(email, password, "", FixedHeaders[AuthorizationHeader := ""], PrimarySentinel)
  }

  // ---------------------------------------------------------------------
  // Requests and replies

  datatype Verb = Get | Post

  /** The login body `{"email": …, "password": …}`. */
  datatype Credentials = Credentials(email: string, password: string)

  datatype Request = Request(verb: Verb, url: string, headers: map<string, string>, body: Option<Credentials>)

  /** A reply from a query endpoint: status code and decoded JSON body. */
  datatype Reply = Reply(status: int, body: Json)

  /** A reply from the login endpoint; `jwt` is the body's `"jwt"` field. */
  datatype LoginReply = LoginReply(status: int, jwt: string)

  /** A facility id as the API sends it: a number or a string. */
  datatype FacilityKey = NumId(n: int) | TextId(s: string)

  /** One entry of the facility list: its `"id"` and `"is_primary"` fields. */
  datatype Facility = Facility(id: FacilityKey, isPrimary: bool)

  /** A reply from the facility list endpoint; `data` is the body's `"data"` list. */
  datatype FacilitiesReply = FacilitiesReply(status: int, data: seq<Facility>)

  /** What a session method leaves behind. */
  datatype Step<T> = Step(client: Client, sent: seq<Request>, result: Result<T>)

  /** What a query method leaves behind (queries never change the client). */
  datatype Fetch = Fetch(sent: seq<Request>, result: Result<Json>)

  function GetRequest(c: Client, url: string): Request {
    Request(Get, url, c.headers, None)
  }

  /** `str(value)` of a facility id: a numeric id is written in decimal and
      reads back as itself, a textual id is kept as it is. */
  function KeyText(k: FacilityKey): (t: string)
    ensures k.NumId? && k.n >= 0 ==> AllDigits(t) && ParseDigits(t) == k.n
    ensures k.NumId? ==> |t| >= 1
    ensures k.NumId? && k.n < 0 ==> t[0] == '-' && AllDigits(t[1..]) && ParseDigits(t[1..]) == -k.n
    ensures k.TextId? ==> t == k.s
  {
    match k
    case NumId(n) => IntToString(n)
    case TextId(s) => s
  }

  // ---------------------------------------------------------------------
  // Queries

  /** The status handling shared by the query methods: on 200 the body (or
      its `"data"` member), otherwise `{}`. Only a 200 reply whose body
      has no `"data"` member can raise. */
  function Receive(reply: Reply, unwrapData: bool): (r: Result<Json>)
    ensures reply.status != HttpOk ==> r == Ok(EmptyObject)
    ensures reply.status == HttpOk && !unwrapData ==> r == Ok(reply.body)
    ensures r.Raise? <==> reply.status == HttpOk && unwrapData && !(reply.body.Obj? && "data" in reply.body.fields)
    ensures r.Raise? ==> r.error == (if reply.body.Obj? then KeyError else TypeError)
    ensures r.Ok? && reply.status == HttpOk && unwrapData ==> r.value == reply.body.fields["data"]
  {
    if reply.status == HttpOk then
      (if unwrapData then Lookup(reply.body, "data") else Ok(reply.body))
    else
      Ok(EmptyObject)
  }

  /** `get_price_data`. */
  function GetPriceData(c: Client, today: Date, reply: Reply): (r: Fetch)
    requires Valid(today)
    ensures r.sent == [] <==> today.year == MaxYear && today.month == 12
    ensures r.sent == [] ==> r.result == Raise(OverflowError)
    ensures r.sent != [] ==> r.sent == [GetRequest(c, PriceDataUrl(c.facilityId, today).value)]
    ensures r.sent != [] && reply.status != HttpOk ==> r.result == Ok(EmptyObject)
    ensures r.sent != [] && reply.status == HttpOk ==> r.result == Lookup(reply.body, "data")
  {
    match PriceDataUrl(c.facilityId, today)
    case None => Fetch([], Raise(OverflowError))
    case Some(url) => Fetch([GetRequest(c, url)], Receive(reply, true))
  }

  /** `get_spot_price`: the whole body is returned on success. */
  function GetSpotPrice(c: Client, today: Date, reply: Reply): (r: Fetch)
    requires Valid(today)
    ensures r.sent == [] <==> Ordinal(today) < 2 || Ordinal(today) + 2 > MaxOrdinal
    ensures r.sent == [] ==> r.result == Raise(OverflowError)
    ensures r.sent != [] ==> r.sent == [GetRequest(c, SpotPriceUrl(c.facilityId, today).value)]
    ensures r.sent != [] && reply.status != HttpOk ==> r.result == Ok(EmptyObject)
    ensures r.sent != [] && reply.status == HttpOk ==> r.result == Ok(reply.body)
  {
    SpotPriceQuery(c.facilityId, today);
    match SpotPriceUrl(c.facilityId, today)
    case None => Fetch([], Raise(OverflowError))
    case Some(url) => Fetch([GetRequest(c, url)], Receive(reply, false))
  }

  /** `get_usage(startDate, endDate, showHourly)`. */
  function GetUsage(c: Client, startDate: Date, endDate: Date, showHourly: bool, reply: Reply): (r: Fetch)
    requires Valid(startDate) && Valid(endDate)
    ensures r.sent == [GetRequest(c, UsageUrl(c.facilityId, startDate, endDate, showHourly))]
    ensures reply.status != HttpOk ==> r.result == Ok(EmptyObject)
    ensures reply.status == HttpOk ==> r.result == Lookup(reply.body, "data")
  {
    Fetch([GetRequest(c, UsageUrl(c.facilityId, startDate, endDate, showHourly))], Receive(reply, true))
  }

  /** `get_produced_electricity(startDate, endDate, showHourly)`. */
  function GetProducedElectricity(c: Client, startDate: Date, endDate: Date, showHourly: bool, reply: Reply): (r: Fetch)
    requires Valid(startDate) && Valid(endDate)
    ensures r.sent == [GetRequest(c, ProducedUrl(c.facilityId, startDate, endDate, showHourly))]
    ensures reply.status != HttpOk ==> r.result == Ok(EmptyObject)
    ensures reply.status == HttpOk ==> r.result == Lookup(reply.body, "data")
  {
    Fetch([GetRequest(c, ProducedUrl(c.facilityId, startDate, endDate, showHourly))], Receive(reply, true))
  }

  /** A failed query never raises: whatever the body, a non-200 reply gives
      `{}` from every query method that got as far as sending its request,
      and a 200 reply raises only when the body has no `"data"` member. */
  lemma FailedQueriesReturnEmpty(c: Client, today: Date, startDate: Date, endDate: Date, showHourly: bool, reply: Reply)
    requires Valid(today) && Valid(startDate) && Valid(endDate)
    ensures reply.status != HttpOk ==>
              && (GetPriceData(c, today, reply).sent != [] ==> GetPriceData(c, today, reply).result == Ok(EmptyObject))
              && (GetSpotPrice(c, today, reply).sent != [] ==> GetSpotPrice(c, today, reply).result == Ok(EmptyObject))
              && GetUsage(c, startDate, endDate, showHourly, reply).result == Ok(EmptyObject)
              && GetProducedElectricity(c, startDate, endDate, showHourly, reply).result == Ok(EmptyObject)
    ensures reply.status == HttpOk ==>
              && GetSpotPrice(c, today, reply).result.Ok? == (GetSpotPrice(c, today, reply).sent != [])
              && (GetUsage(c, startDate, endDate, showHourly, reply).result.Ok?
                  <==> reply.body.Obj? && "data" in reply.body.fields)
  {
  }

  // ---------------------------------------------------------------------
  // Facility lookup

  /** The first facility flagged primary, as
      `next((f for f in data if f["is_primary"] == True), None)` finds it. */
  function FirstPrimary(data: seq<Facility>): (r: Option<Facility>)
    ensures r.None? <==> forall k :: 0 <= k < |data| ==> !data[k].isPrimary
    ensures r.Some? ==> exists k :: 0 <= k < |data| && data[k] == r.value && r.value.isPrimary
                          && forall j :: 0 <= j < k ==> !data[j].isPrimary
  {
    if |data| == 0 then None
    else if data[0].isPrimary then Some(data[0])
    else
      var rest := FirstPrimary(data[1..]);
      if rest.Some? then
        var k :| 0 <= k < |data[1..]| && data[1..][k] == rest.value && rest.value.isPrimary
                 && forall j :: 0 <= j < k ==> !data[1..][j].isPrimary;
        assert data[k + 1] == rest.value;
        rest
      else
        rest
  }

  /** The facility the lookup should settle on: the first primary one, or
      the first of the list when none is flagged. */
  function ChosenFacility(data: seq<Facility>): Facility
    requires |data| > 0
  {
    match FirstPrimary(data)
    case Some(f) => f
    case None => data[0]
  }

  /** `get_facility_id` as written: it looks for the primary facility but
      then stores the id of `data[0]` whatever it found. */
  function GetFacilityIdAsWritten(c: Client, reply: FacilitiesReply): (r: Step<Option<string>>)
    ensures r.sent == [GetRequest(c, FacilitiesBase)]
    ensures reply.status == HttpOk && |reply.data| > 0 ==>
              r.client == c.(facilityId := KeyText(reply.data[0].id)) && r.result == Ok(Some(KeyText(reply.data[0].id)))
    ensures reply.status == HttpOk && |reply.data| == 0 ==> r.client == c && r.result == Raise(IndexError)
    ensures reply.status != HttpOk ==> r.client == c && r.result == Ok(None)
  {
    var request := GetRequest(c, FacilitiesBase);
    if reply.status == HttpOk then
      if |reply.data| == 0 then
        Step(c, [request], Raise(IndexError))
      else
        var _ := FirstPrimary(reply.data);
        var id := KeyText(reply.data[0].id);
        Step(c.(facilityId := id), [request], Ok(Some(id)))
    else
      Step(c, [request], Ok(None))
  }

  /** With the first entry not primary and the second one primary, the
      literal lookup stores the first entry's id, not the primary one's. */
  lemma AsWrittenLookupIgnoresPrimary()
    ensures var c := NewClient("user@example.com", "secret");
            var reply := FacilitiesReply(HttpOk, [Facility(NumId(1), false), Facility(NumId(2), true)]);
            && ChosenFacility(reply.data).id == NumId(2)
            && GetFacilityIdAsWritten(c, reply).client.facilityId == "1"
            && GetFacilityIdAsWritten(c, reply).client.facilityId != KeyText(ChosenFacility(reply.data).id)
  {
  }

  /** `get_facility_id` as intended: on 200 it stores and returns the id of
      the first primary facility, or of the first facility when none is
      flagged primary; an empty list raises `IndexError` (from `data[0]`);
      on any other status it changes nothing and returns `None`. */
  function GetFacilityId(c: Client, reply: FacilitiesReply): (r: Step<Option<string>>)
    ensures r.sent == [GetRequest(c, FacilitiesBase)]
    ensures r.client.email == c.email && r.client.password == c.password
    ensures r.client.jwt == c.jwt && r.client.headers == c.headers
    ensures r.result.Ok? && r.result.value.Some? <==> reply.status == HttpOk && |reply.data| > 0
    ensures r.result.Ok? && r.result.value.Some? ==>
              && r.client.facilityId == r.result.value.value
              && (exists k :: 0 <= k < |reply.data| && KeyText(reply.data[k].id) == r.client.facilityId
                    && ((reply.data[k].isPrimary && forall j :: 0 <= j < k ==> !reply.data[j].isPrimary)
                        || (k == 0 && forall j :: 0 <= j < |reply.data| ==> !reply.data[j].isPrimary)))
    ensures !(r.result.Ok? && r.result.value.Some?) ==> r.client == c
    ensures r.result.Raise? <==> reply.status == HttpOk && |reply.data| == 0
    ensures r.result.Raise? ==> r.result.error == IndexError
  {
    var request := GetRequest(c, FacilitiesBase);
    if reply.status == HttpOk then
      if |reply.data| == 0 then
        Step(c, [request], Raise(IndexError))
      else
        var id := KeyText(ChosenFacility(reply.data).id);
        Step(c.(facilityId := id), [request], Ok(Some(id)))
    else
      Step(c, [request], Ok(None))
  }

  /** The intended lookup resolves to the primary facility when exactly one
      is flagged, and to the first facility when none is. */
  lemma GetFacilityIdPolicy(c: Client, data: seq<Facility>, k: nat)
    requires k < |data| && data[k].isPrimary
    requires forall j :: 0 <= j < |data| && j != k ==> !data[j].isPrimary
    ensures GetFacilityId(c, FacilitiesReply(HttpOk, data)).client.facilityId == KeyText(data[k].id)
    ensures GetFacilityId(c, FacilitiesReply(HttpOk, data)).result == Ok(Some(KeyText(data[k].id)))
  {
    var f := FirstPrimary(data).value;
    var i :| 0 <= i < |data| && data[i] == f && f.isPrimary && forall j :: 0 <= j < i ==> !data[j].isPrimary;
    assert i == k;
  }

  // ---------------------------------------------------------------------
  // Session

  /** The client after a successful login post: the token `"JWT " + jwt`
      stored and installed as the Authorization header. */
  function SignedIn(c: Client, jwt: string): Client {
    c.(jwt := JwtScheme + jwt, headers := c.headers[AuthorizationHeader := JwtScheme + jwt])
  }

  /** `login`: on 200 it stores `"JWT " + jwt`, installs it as the
      Authorization header and, while the facility id is still the sentinel,
      looks the facility up with the new header; any other status changes
      nothing and returns False. */
  function Login(c: Client, reply: LoginReply, facilities: FacilitiesReply): (r: Step<bool>)
    ensures |r.sent| >= 1 && r.sent[0] == Request(Post, LoginUrl, c.headers, Some(Credentials(c.email, c.password)))
    ensures reply.status != HttpOk ==> r.client == c && r.sent == r.sent[..1] && r.result == Ok(false)
    ensures reply.status == HttpOk ==>
              && r.client.jwt == JwtScheme + reply.jwt
              && r.client.headers == c.headers[AuthorizationHeader := r.client.jwt]
              && (r.result == Ok(true) || r.result == Raise(IndexError))
    ensures |r.sent| == 2 <==> reply.status == HttpOk && c.facilityId == PrimarySentinel
    ensures |r.sent| == 2 ==> r.sent[1] == Request(Get, FacilitiesBase, r.client.headers, None)
    ensures |r.sent| <= 2
    ensures c.facilityId != PrimarySentinel ==> r.client.facilityId == c.facilityId
    ensures reply.status == HttpOk ==> r.client.email == c.email && r.client.password == c.password
    ensures reply.status == HttpOk && c.facilityId == PrimarySentinel ==>
              r.client == GetFacilityIdAsWritten(SignedIn(c, reply.jwt), facilities).client
    ensures reply.status == HttpOk && c.facilityId == PrimarySentinel && facilities.status == HttpOk && |facilities.data| > 0
            ==> r.client.facilityId == KeyText(facilities.data[0].id)
    ensures r.result.Raise? ==> r.result == Raise(IndexError) && |r.sent| == 2
    ensures r.result == Raise(IndexError)
            <==> reply.status == HttpOk && c.facilityId == PrimarySentinel
                 && facilities.status == HttpOk && |facilities.data| == 0
  {
    var post := Request(Post, LoginUrl, c.headers, Some(Credentials(c.email, c.password)));
    if reply.status == HttpOk then
      var signedIn := SignedIn(c, reply.jwt);
      if signedIn.facilityId == PrimarySentinel then
        var lookup := GetFacilityIdAsWritten(signedIn, facilities);
        Step(lookup.client, [post] + lookup.sent,
             if lookup.result.Raise? then Raise(lookup.result.error) else Ok(true))
      else
        Step(signedIn, [post], Ok(true))
    else
      Step(c, [post], Ok(false))
  }

  /** `check_auth`: a 200 from the check endpoint means the token is valid
      and nothing else happens; otherwise it logs in once and returns what
      `login` returned. */
  function CheckAuth(c: Client, checkStatus: int, login: LoginReply, facilities: FacilitiesReply): (r: Step<bool>)
    ensures |r.sent| >= 1 && r.sent[0] == GetRequest(c, CheckAuthUrl)
    ensures checkStatus == HttpOk ==> r.client == c && |r.sent| == 1 && r.result == Ok(true)
    ensures checkStatus != HttpOk ==>
              var l := Login(c, login, facilities);
              r.client == l.client && r.sent == [GetRequest(c, CheckAuthUrl)] + l.sent && r.result == l.result
  {
    var probe := GetRequest(c, CheckAuthUrl);
    if checkStatus == HttpOk then
      Step(c, [probe], Ok(true))
    else
      var l := Login(c, login, facilities);
      Step(l.client, [probe] + l.sent, l.result)
  }

  /** The number of login posts among the requests. */
  function Logins(sent: seq<Request>): nat {
    if |sent| == 0 then 0
    else Logins(sent[..|sent| - 1]) + (if sent[|sent| - 1].verb == Post then 1 else 0)
  }

  /** A check logs in at most once: exactly once when the check fails, never
      when it succeeds. */
  lemma CheckAuthLogsInAtMostOnce(c: Client, checkStatus: int, login: LoginReply, facilities: FacilitiesReply)
    ensures Logins(CheckAuth(c, checkStatus, login, facilities).sent) == (if checkStatus == HttpOk then 0 else 1)
  {
    var s := CheckAuth(c, checkStatus, login, facilities).sent;
    assert s[..1][..0] == [];
    assert Logins(s[..1]) == 0;
    if checkStatus != HttpOk {
      var l := Login(c, login, facilities);
      assert s[1] == l.sent[0];
      assert s[..2][..1] == s[..1];
      assert Logins(s[..2]) == 1;
      if |s| == 3 {
        assert s[2] == l.sent[1];
        assert s[..3] == s;
      } else {
        assert s[..2] == s;
      }
    }
  }

  /** The session invariant holds from construction on: every transition
      keeps the Authorization header equal to the stored token, keeps the
      fixed headers, and stores only tokens carrying the scheme tag. */
  lemma SessionStaysConsistent(c: Client, checkStatus: int, login: LoginReply, facilities: FacilitiesReply)
    requires Consistent(c)
    ensures Consistent(Login(c, login, facilities).client)
    ensures Consistent(CheckAuth(c, checkStatus, login, facilities).client)
    ensures Consistent(GetFacilityIdAsWritten(c, facilities).client)
    ensures Consistent(GetFacilityId(c, facilities).client)
  {
    assert JwtScheme <= JwtScheme + login.jwt;
  }

  /** Once the facility id has been resolved, checking the session never
      looks it up again or changes it. */
  lemma ResolvedFacilityIsKept(c: Client, checkStatus: int, login: LoginReply, facilities: FacilitiesReply)
    requires c.facilityId != PrimarySentinel
    ensures CheckAuth(c, checkStatus, login, facilities).client.facilityId == c.facilityId
    ensures forall k :: 0 <= k < |CheckAuth(c, checkStatus, login, facilities).sent| ==>
              CheckAuth(c, checkStatus, login, facilities).sent[k].url != FacilitiesBase
  {
  }
}

=== FILE: base.dfy ===
/** Failure-carrying wrappers shared by the whole model.

    Python signals failure in this integration in two ways: by returning a
    falsy value (`{}`, `None`) and by raising. Falsy returns are modelled as
    ordinary values; the exceptions the code can raise are listed in `Raised`
    and carried by `Result`.
 */
module Base {

  datatype Option<+T> = None | Some(value: T)

  /** The Python exceptions the modelled code can raise. */
  datatype Raised =
    | KeyError       // `d[key]` on a dict without that key
    | TypeError      // `x[key]` on a value that is not a dict
    | IndexError     // `data[0]` on an empty list
    | OverflowError  // date arithmetic leaving the years 1..9999

  /** Either a returned value or a raised exception. */
  datatype Result<+T> = Ok(value: T) | Raise(error: Raised) {

    predicate IsFailure() {
      Raise?
    }

    function PropagateFailure<U>(): Result<U>
      requires Raise?
    {
      Raise(error)
    }

    function Extract(): T
      requires Ok?
    {
      value
    }
  }
}

=== FILE: dates.dfy ===
/** Calendar dates as Python's `datetime.date` sees them: the proleptic
    Gregorian calendar restricted to the years 1..9999.

    `timedelta` arithmetic is modelled by `AddDays`, which fails (Python raises
    `OverflowError`) when the result leaves the representable range. The
    reference against which every shift is proved is `Ordinal`, the day number
    Python calls `toordinal()` (0001-01-01 is day 1).
 */
module Dates {
  import opened Base

  const MinYear := 1
  const MaxYear := 9999

  datatype Date = Date(year: int, month: int, day: int)

  const FirstDate := Date(MinYear, 1, 1)
  const LastDate := Date(MaxYear, 12, 31)

  /** The day number of `LastDate` (Python's `date.max.toordinal()`). */
  const MaxOrdinal := 3652059

  predicate IsLeapYear(y: int) {
    y % 4 == 0 && (y % 100 != 0 || y % 400 == 0)
  }

  function DaysInMonth(y: int, m: int): (n: int)
    requires 1 <= m <= 12
    ensures 28 <= n <= 31
    ensures m == 2 <==> n < 30
  {
    if m == 2 then (if IsLeapYear(y) then 29 else 28)
    else if m == 4 || m == 6 || m == 9 || m == 11 then 30
    else 31
  }

  function DaysInYear(y: int): int {
    if IsLeapYear(y) then 366 else 365
  }

  /** A date `datetime.date` accepts. */
  predicate Valid(d: Date) {
    && MinYear <= d.year <= MaxYear
    && 1 <= d.month <= 12
    && 1 <= d.day <= DaysInMonth(d.year, d.month)
  }

  /** Lexicographic (chronological) order on dates. */
  predicate Before(a: Date, b: Date) {
    || a.year < b.year
    || (a.year == b.year && a.month < b.month)
    || (a.year == b.year && a.month == b.month && a.day < b.day)
  }

  // ---------------------------------------------------------------------
  // Day numbers

  /** Days in the years before `y`, counted from year 1 (the closed form
      Python's `datetime` module uses). */
  function DaysBeforeYear(y: int): nat
    requires MinYear <= y
  {
    var n := y - 1;
    365 * n + n / 4 - n / 100 + n / 400
  }

  /** `n / q` grows by one exactly when `n` is a multiple of `q`. */
  lemma DivStep(n: int, q: int)
    requires n >= 1 && (q == 4 || q == 100 || q == 400)
    ensures n / q - (n - 1) / q == (if n % q == 0 then 1 else 0)
  {
    if q == 4 {
      assert n / 4 - (n - 1) / 4 == (if n % 4 == 0 then 1 else 0);
    } else if q == 100 {
      assert n / 100 - (n - 1) / 100 == (if n % 100 == 0 then 1 else 0);
    } else {
      assert n / 400 - (n - 1) / 400 == (if n % 400 == 0 then 1 else 0);
    }
  }

  /** Consecutive years are one year length apart. */
  lemma DaysBeforeYearStep(y: int)
    requires MinYear <= y
    ensures DaysBeforeYear(y + 1) == DaysBeforeYear(y) + DaysInYear(y)
  {
    var n := y - 1;
    var c4, c100, c400 := y / 4 - n / 4, y / 100 - n / 100, y / 400 - n / 400;
    assert DaysBeforeYear(y + 1) == DaysBeforeYear(y) + 365 + c4 - c100 + c400;
    DivStep(y, 4);
    DivStep(y, 100);
    DivStep(y, 400);
    if y % 400 == 0 {
      MultipleOf(y, 400, 100);
      MultipleOf(y, 100, 4);
    } else if y % 100 == 0 {
      MultipleOf(y, 100, 4);
    }
  }

  /** A multiple of 400 is a multiple of 100, and one of 100 a multiple of 4. */
  lemma MultipleOf(y: int, big: int, small: int)
    requires (big == 400 && small == 100) || (big == 100 && small == 4)
    requires y % big == 0
    ensures y % small == 0
  {
    var k := y / big;
    if big == 400 {
      assert y == 100 * (4 * k);
    } else {
      assert y == 4 * (25 * k);
    }
  }

  /** Days in the months of year `y` before month `m` (`m == 13` gives the whole year). */
  function DaysBeforeMonth(y: int, m: int): nat
    requires 1 <= m <= 13
    decreases m
  {
    if m == 1 then 0 else DaysBeforeMonth(y, m - 1) + DaysInMonth(y, m - 1)
  }

  /** Python's `date.toordinal()`. */
  function Ordinal(d: Date): (n: int)
    requires Valid(d)
    ensures n >= 1
  {
    DaysBeforeYear(d.year) + DaysBeforeMonth(d.year, d.month) + d.day
  }

  /** The twelve month lengths add up to the year length. */
  lemma YearLength(y: int)
    ensures DaysBeforeMonth(y, 13) == DaysInYear(y)
    ensures DaysBeforeMonth(y, 12) + 31 == DaysInYear(y)
  {
    assert DaysBeforeMonth(y, 1) == 0;
    assert DaysBeforeMonth(y, 2) == 31;
    assert DaysBeforeMonth(y, 3) == 31 + DaysInMonth(y, 2);
    assert DaysBeforeMonth(y, 4) == 62 + DaysInMonth(y, 2);
    assert DaysBeforeMonth(y, 5) == 92 + DaysInMonth(y, 2);
    assert DaysBeforeMonth(y, 6) == 123 + DaysInMonth(y, 2);
    assert DaysBeforeMonth(y, 7) == 153 + DaysInMonth(y, 2);
    assert DaysBeforeMonth(y, 8) == 184 + DaysInMonth(y, 2);
    assert DaysBeforeMonth(y, 9) == 215 + DaysInMonth(y, 2);
    assert DaysBeforeMonth(y, 10) == 245 + DaysInMonth(y, 2);
    assert DaysBeforeMonth(y, 11) == 276 + DaysInMonth(y, 2);
    assert DaysBeforeMonth(y, 12) == 306 + DaysInMonth(y, 2);
    assert DaysBeforeMonth(y, 13) == 337 + DaysInMonth(y, 2);
  }

  /** A month ends no later than the start of any later month. */
  lemma {:induction false} MonthEndsBeforeLaterMonth(y: int, m1: int, m2: int)
    requires 1 <= m1 < m2 <= 13
    ensures DaysBeforeMonth(y, m1) + DaysInMonth(y, m1) <= DaysBeforeMonth(y, m2)
    decreases m2
  {
    if m2 > m1 + 1 {
      MonthEndsBeforeLaterMonth(y, m1, m2 - 1);
    }
  }

  /** A year ends no later than the start of any later year. */
  lemma {:induction false} YearEndsBeforeLaterYear(y1: int, y2: int)
    requires MinYear <= y1 < y2
    ensures DaysBeforeYear(y1) + DaysInYear(y1) <= DaysBeforeYear(y2)
    decreases y2
  {
    DaysBeforeYearStep(y1);
    if y2 > y1 + 1 {
      YearEndsBeforeLaterYear(y1, y2 - 1);
      DaysBeforeYearStep(y2 - 1);
    }
  }

  /** The last day of a date's month falls inside the year. */
  lemma MonthInsideYear(d: Date)
    requires Valid(d)
    ensures DaysBeforeMonth(d.year, d.month) + d.day <= DaysInYear(d.year)
  {
    MonthEndsBeforeLaterMonth(d.year, d.month, 13);
    YearLength(d.year);
  }

  /** Chronological order and day numbers agree. */
  lemma OrdinalOrder(a: Date, b: Date)
    requires Valid(a) && Valid(b)
    ensures Before(a, b) <==> Ordinal(a) < Ordinal(b)
  {
    if Before(a, b) {
      OrdinalIncreasing(a, b);
    } else if Before(b, a) {
      OrdinalIncreasing(b, a);
    }
  }

  lemma OrdinalIncreasing(a: Date, b: Date)
    requires Valid(a) && Valid(b) && Before(a, b)
    ensures Ordinal(a) < Ordinal(b)
  {
    if a.year < b.year {
      MonthInsideYear(a);
      YearEndsBeforeLaterYear(a.year, b.year);
    } else if a.month < b.month {
      MonthEndsBeforeLaterMonth(a.year, a.month, b.month);
    }
  }

  /** Two valid dates with the same day number are the same date. */
  lemma OrdinalInjective(a: Date, b: Date)
    requires Valid(a) && Valid(b)
    requires Ordinal(a) == Ordinal(b)
    ensures a == b
  {
    OrdinalOrder(a, b);
    OrdinalOrder(b, a);
  }

  lemma LastOrdinal()
    ensures Ordinal(LastDate) == MaxOrdinal
  {
  }

  /** Every valid date has a day number in `1 .. MaxOrdinal`. */
  lemma OrdinalRange(d: Date)
    requires Valid(d)
    ensures 1 <= Ordinal(d) <= MaxOrdinal
  {
    LastOrdinal();
    if d != LastDate {
      OrdinalBelowLast(d);
    }
  }

  /** Only the two ends of the date range reach the bounds of the day
      numbers. */
  lemma OrdinalEnds(d: Date)
    requires Valid(d)
    ensures Ordinal(d) == 1 <==> d == FirstDate
    ensures Ordinal(d) == MaxOrdinal <==> d == LastDate
  {
    LastOrdinal();
    if d != FirstDate {
      OrdinalAboveFirst(d);
    }
    if d != LastDate {
      OrdinalBelowLast(d);
    }
  }

  lemma OrdinalAboveFirst(d: Date)
    requires Valid(d) && d != FirstDate
    ensures Ordinal(d) > 1
  {
    assert Before(FirstDate, d);
    OrdinalIncreasing(FirstDate, d);
  }

  lemma OrdinalBelowLast(d: Date)
    requires Valid(d) && d != LastDate
    ensures Ordinal(d) < MaxOrdinal
  {
    LastOrdinal();
    assert Before(d, LastDate);
    OrdinalIncreasing(d, LastDate);
  }

  // ---------------------------------------------------------------------
  // Day shifts (`date ± timedelta(days=…)`)

  /** The last day of month `m` and the first of month `m + 1` of the same
      year are consecutive days. */
  lemma MonthBoundary(y: int, m: int)
    requires MinYear <= y <= MaxYear && 1 <= m < 12
    ensures Valid(Date(y, m, DaysInMonth(y, m))) && Valid(Date(y, m + 1, 1))
    ensures Ordinal(Date(y, m + 1, 1)) == Ordinal(Date(y, m, DaysInMonth(y, m))) + 1
  {
  }

  /** New Year's Eve of year `y` and New Year's Day of `y + 1` are
      consecutive days. */
  lemma YearBoundary(y: int)
    requires MinYear <= y < MaxYear
    ensures Valid(Date(y, 12, 31)) && Valid(Date(y + 1, 1, 1))
    ensures Ordinal(Date(y + 1, 1, 1)) == Ordinal(Date(y, 12, 31)) + 1
  {
    YearLength(y);
    DaysBeforeYearStep(y);
  }

  /** `d + timedelta(days=1)`. */
  function NextDay(d: Date): (r: Option<Date>)
    requires Valid(d)
    ensures r.Some? <==> d != LastDate
    ensures r.Some? ==> Valid(r.value) && Ordinal(r.value) == Ordinal(d) + 1
  {
    if d.day < DaysInMonth(d.year, d.month) then
      Some(Date(d.year, d.month, d.day + 1))
    else if d.month < 12 then
      DayAfterMonthEnd(d);
      Some(Date(d.year, d.month + 1, 1))
    else if d.year < MaxYear then
      DayAfterYearEnd(d);
      Some(Date(d.year + 1, 1, 1))
    else
      None
  }

  /** `d - timedelta(days=1)`. */
  function PrevDay(d: Date): (r: Option<Date>)
    requires Valid(d)
    ensures r.Some? <==> d != FirstDate
    ensures r.Some? ==> Valid(r.value) && Ordinal(r.value) == Ordinal(d) - 1
  {
    if d.day > 1 then
      Some(Date(d.year, d.month, d.day - 1))
    else if d.month > 1 then
      DayBeforeMonthStart(d);
      Some(Date(d.year, d.month - 1, DaysInMonth(d.year, d.month - 1)))
    else if d.year > MinYear then
      DayBeforeYearStart(d);
      Some(Date(d.year - 1, 12, 31))
    else
      None
  }

  lemma DayAfterMonthEnd(d: Date)
    requires Valid(d) && d.day == DaysInMonth(d.year, d.month) && d.month < 12
    ensures Valid(Date(d.year, d.month + 1, 1)) && Ordinal(Date(d.year, d.month + 1, 1)) == Ordinal(d) + 1
  {
    MonthBoundary(d.year, d.month);
  }

  lemma DayAfterYearEnd(d: Date)
    requires Valid(d) && d.day == 31 && d.month == 12 && d.year < MaxYear
    ensures Valid(Date(d.year + 1, 1, 1)) && Ordinal(Date(d.year + 1, 1, 1)) == Ordinal(d) + 1
  {
    YearBoundary(d.year);
  }

  lemma DayBeforeMonthStart(d: Date)
    requires Valid(d) && d.day == 1 && d.month > 1
    ensures Valid(Date(d.year, d.month - 1, DaysInMonth(d.year, d.month - 1)))
    ensures Ordinal(Date(d.year, d.month - 1, DaysInMonth(d.year, d.month - 1))) == Ordinal(d) - 1
  {
    MonthBoundary(d.year, d.month - 1);
  }

  lemma DayBeforeYearStart(d: Date)
    requires Valid(d) && d.day == 1 && d.month == 1 && d.year > MinYear
    ensures Valid(Date(d.year - 1, 12, 31)) && Ordinal(Date(d.year - 1, 12, 31)) == Ordinal(d) - 1
  {
    YearBoundary(d.year - 1);
  }

  /** `d + timedelta(days=n)`; `None` where Python raises `OverflowError`.
      The result is the unique valid date `n` days away. */
  function AddDays(d: Date, n: int): (r: Option<Date>)
    requires Valid(d)
    ensures r.Some? <==> 1 <= Ordinal(d) + n <= MaxOrdinal
    ensures r.Some? ==> Valid(r.value) && Ordinal(r.value) == Ordinal(d) + n
    decreases if n < 0 then -n else n
  {
    if n == 0 then
      OrdinalRange(d);
      Some(d)
    else if n > 0 then
      match NextDay(d)
      case None => None
      case Some(e) => AddDays(e, n - 1)
    else
      match PrevDay(d)
      case None => None
      case Some(e) => AddDays(e, n + 1)
  }

  /** Any valid date at the right distance is the result of the shift. */
  lemma AddDaysExact(d: Date, n: int, e: Date)
    requires Valid(d) && Valid(e)
    requires Ordinal(e) == Ordinal(d) + n
    ensures AddDays(d, n) == Some(e)
  {
    OrdinalRange(e);
    OrdinalInjective(AddDays(d, n).value, e);
  }

  // ---------------------------------------------------------------------
  // Month starts

  /** `d.replace(day=1)`. */
  function FirstOfMonth(d: Date): (r: Date)
    requires Valid(d)
    ensures Valid(r) && r.year == d.year && r.month == d.month
    ensures Ordinal(d) == Ordinal(r) + d.day - 1
  {
    Date(d.year, d.month, 1)
  }

  /** The first day of the calendar month after `d`'s month; `None` past 9999. */
  function FirstOfNextMonth(d: Date): (r: Option<Date>)
    requires Valid(d)
  {
    if d.month < 12 then Some(Date(d.year, d.month + 1, 1))
    else if d.year < MaxYear then Some(Date(d.year + 1, 1, 1))
    else None
  }

  /** The next month starts exactly one month length after this month
      starts, and December rolls over to January of the following year. */
  lemma FirstOfNextMonthSpan(d: Date)
    requires Valid(d)
    ensures FirstOfNextMonth(d).Some? <==> d.year < MaxYear || d.month < 12
    ensures FirstOfNextMonth(d).Some? ==>
              && Valid(FirstOfNextMonth(d).value)
              && FirstOfNextMonth(d).value.day == 1
              && Ordinal(FirstOfNextMonth(d).value)
                 == Ordinal(FirstOfMonth(d)) + DaysInMonth(d.year, d.month)
    ensures d.month == 12 && d.year < MaxYear ==>
              FirstOfNextMonth(d) == Some(Date(d.year + 1, 1, 1))
  {
    if d.month == 12 && d.year < MaxYear {
      YearLength(d.year);
      DaysBeforeYearStep(d.year);
    }
  }

  /** `(d.replace(day=1) + timedelta(days=32)).replace(day=1)`, the way the
      client computes the start of the next month. */
  function NextMonthByDays(d: Date): (r: Option<Date>)
    requires Valid(d)
    ensures r.Some? ==> Valid(r.value) && r.value.day == 1
  {
    match AddDays(FirstOfMonth(d), 32)
    case None => None
    case Some(e) => Some(Date(e.year, e.month, 1))
  }

  /** Jumping 32 days from the first of a month always lands in the next
      calendar month, so the client's computation is the calendar one. */
  lemma NextMonthByDaysIsNextMonth(d: Date)
    requires Valid(d)
    ensures NextMonthByDays(d) == FirstOfNextMonth(d)
  {
    var f := FirstOfMonth(d);
    var len := DaysInMonth(d.year, d.month);
    FirstOfNextMonthSpan(d);
    match FirstOfNextMonth(d)
    case Some(g) =>
      var landing := Date(g.year, g.month, 33 - len);
      assert Valid(landing);
      assert Ordinal(landing) == Ordinal(g) + 32 - len;
      AddDaysExact(f, 32, landing);
    case None =>
      LastOrdinal();
      assert MaxOrdinal == Ordinal(f) + 30;
  }
}

=== FILE: json.dfy ===
/** Decoded JSON bodies, as `response.json()` returns them, with the
    Python operation the client applies to them: subscripting by a key. */
module Json {
  import opened Base

  datatype Json =
    | Null
    | Bool(b: bool)
    | Num(n: int)
    | Str(s: string)
    | Arr(items: seq<Json>)
    | Obj(fields: map<string, Json>)

  /** The `{}` every query method returns on failure. */
  const EmptyObject: Json := Obj(map[])

  /** `value[key]`: a dict without the key raises `KeyError`, and any other
      kind of value raises `TypeError`. */
  function Lookup(j: Json, key: string): (r: Result<Json>)
    ensures r.Ok? <==> j.Obj? && key in j.fields
    ensures r.Ok? ==> r.value == j.fields[key]
    ensures r.Raise? ==> r.error == (if j.Obj? then KeyError else TypeError)
  {
    match j
    case Obj(fields) => if key in fields then Ok(fields[key]) else Raise(KeyError)
    case _ => Raise(TypeError)
  }
}

=== FILE: prices_sensor.dfy ===
/** `GreenelyPricesSensor` (`custom_components/greenely/sensor.py`): the spot
    price buckets and the current-month price list.

    A spot-price point is one value of the reply's `"data"` dict, with its
    `"localtime"` already parsed; a current-month point is one element of
    `"points"`, with its price field already selected. Each attribute entry
    the sensor renders (date and time text, price divided by 100 or 1000) is
    represented here by the point it is rendered from. */
module PricesSensor {
  import opened Base
  import opened Dates
  import opened Shaping

  datatype SpotPoint = SpotPoint(date: Date, time: string, price: Option<int>)

  datatype MonthPoint = MonthPoint(timestamp: int, price: Option<int>)

  /** The spot-price reply: `{}` (falsy) or a body whose `"data"` holds the points in dict order. */
  datatype SpotReply = NoSpotData | SpotData(points: seq<SpotPoint>)

  datatype Buckets = Buckets(currentDay: seq<SpotPoint>, nextDay: seq<SpotPoint>, previousDay: seq<SpotPoint>)

  /** The sensor's attributes this model tracks; `None` is an attribute not set yet. */
  datatype PricesSensor = PricesSensor(
    currentDay: Option<seq<SpotPoint>>,
    nextDay: Option<seq<SpotPoint>>,
    previousDay: Option<seq<SpotPoint>>,
    currentMonth: Option<seq<MonthPoint>>)

  /** Points dated `day` (when that day exists) that carry a price. */
  function PricedOn(day: Option<Date>): SpotPoint -> bool {
    (p: SpotPoint) => day.Some? && p.date == day.value && p.price.Some?
  }

  /** Classifying `p` against today and its two neighbours (`None` where
      the neighbour does not exist) raises `OverflowError`: `p` is not dated
      today and `today + 1` is missing, or `p` is not dated `today + 1`
      either and `today - 1` is missing. */
  predicate Misses(p: SpotPoint, today: Date, tomorrow: Option<Date>, yesterday: Option<Date>) {
    && p.date != today
    && (tomorrow.None? || (p.date != tomorrow.value && yesterday.None?))
  }

  predicate Overflows(today: Date, p: SpotPoint)
    requires Valid(today)
  {
    Misses(p, today, NextDay(today), PrevDay(today))
  }

  /** One turn of the bucketing loop: the `if`/`elif` chain that appends a
      point to the bucket of its day, given today's neighbours (`None`
      where Python's date arithmetic would raise). */
  method PlacePoint(p: SpotPoint, today: Date, tomorrow: Option<Date>, yesterday: Option<Date>, b: Buckets)
    returns (r: Result<Buckets>)
    requires tomorrow.Some? ==> tomorrow.value != today
    requires yesterday.Some? ==> yesterday.value != today
    requires tomorrow.Some? && yesterday.Some? ==> tomorrow.value != yesterday.value
    ensures r.Raise? <==> Misses(p, today, tomorrow, yesterday)
    ensures r.Raise? ==> r.error == OverflowError
    ensures r.Ok? ==> r.value == Buckets(b.currentDay + Kept(p, PricedOn(Some(today))),
                                         b.nextDay + Kept(p, PricedOn(tomorrow)),
                                         b.previousDay + Kept(p, PricedOn(yesterday)))
  {
    if p.date == today {
      if p.price.Some? {
        return Ok(b.(currentDay := b.currentDay + [p]));
      }
    } else if tomorrow.None? {
      return Raise(OverflowError);
    } else if p.date == tomorrow.value {
      if p.price.Some? {
        return Ok(b.(nextDay := b.nextDay + [p]));
      }
    } else if yesterday.None? {
      return Raise(OverflowError);
    } else if p.date == yesterday.value && p.price.Some? {
      return Ok(b.(previousDay := b.previousDay + [p]));
    }
    return Ok(b);
  }

  /** The bucketing loop of `update`: each priced point goes to the bucket of
      its day (today, today+1, today−1), other points are dropped, and every
      bucket keeps the reply's order. */
  method BucketSpotPrices(today: Date, points: seq<SpotPoint>) returns (r: Result<Buckets>)
    requires Valid(today)
    ensures r.Ok? <==> forall k :: 0 <= k < |points| ==> !Overflows(today, points[k])
    ensures r.Raise? ==> r.error == OverflowError
    ensures r.Ok? ==>
              && r.value.currentDay == Filter(points, PricedOn(Some(today)))
              && r.value.nextDay == Filter(points, PricedOn(NextDay(today)))
              && r.value.previousDay == Filter(points, PricedOn(PrevDay(today)))
  {
    // `today.date() ± timedelta(days=1)`, which Python evaluates only when a
    // point needs it; a missing neighbour raises at that point.
    r := PlacePoints(points, today, NextDay(today), PrevDay(today));
  }

  /** The loop of `BucketSpotPrices` for given neighbours of today. */
  method PlacePoints(points: seq<SpotPoint>, today: Date, tomorrow: Option<Date>, yesterday: Option<Date>)
    returns (r: Result<Buckets>)
    requires tomorrow.Some? ==> tomorrow.value != today
    requires yesterday.Some? ==> yesterday.value != today
    requires tomorrow.Some? && yesterday.Some? ==> tomorrow.value != yesterday.value
    ensures r.Ok? <==> forall k :: 0 <= k < |points| ==> !Misses(points[k], today, tomorrow, yesterday)
    ensures r.Raise? ==> r.error == OverflowError
    ensures r.Ok? ==>
              && r.value.currentDay == Filter(points, PricedOn(Some(today)))
              && r.value.nextDay == Filter(points, PricedOn(tomorrow))
              && r.value.previousDay == Filter(points, PricedOn(yesterday))
  {
    var b := Buckets([], [], []);
    var i := 0;
    while i < |points|
      invariant 0 <= i <= |points|
      invariant forall k :: 0 <= k < i ==> !Misses(points[k], today, tomorrow, yesterday)
      invariant b.currentDay == Filter(points[..i], PricedOn(Some(today)))
      invariant b.nextDay == Filter(points[..i], PricedOn(tomorrow))
      invariant b.previousDay == Filter(points[..i], PricedOn(yesterday))
    {
      var placed := PlacePoint(points[i], today, tomorrow, yesterday, b);
      if placed.Raise? {
        return placed;
      }
      FilterSnoc(points[..i], points[i], PricedOn(Some(today)));
      FilterSnoc(points[..i], points[i], PricedOn(tomorrow));
      FilterSnoc(points[..i], points[i], PricedOn(yesterday));
      assert points[..i + 1] == points[..i] + [points[i]];
      b := placed.value;
      i := i + 1;
    }
    assert points[..|points|] == points;
    r := Ok(b);
  }

  /** A point lands in a bucket exactly when it is priced and dated that
      bucket's day, and the three buckets never share a point. */
  lemma BucketMembership(today: Date, points: seq<SpotPoint>, b: Buckets, p: SpotPoint)
    requires Valid(today)
    requires b.currentDay == Filter(points, PricedOn(Some(today)))
    requires b.nextDay == Filter(points, PricedOn(NextDay(today)))
    requires b.previousDay == Filter(points, PricedOn(PrevDay(today)))
    ensures p in b.currentDay <==> p in points && p.price.Some? && p.date == today
    ensures p in b.nextDay <==> p in points && p.price.Some? && NextDay(today) == Some(p.date)
    ensures p in b.previousDay <==> p in points && p.price.Some? && PrevDay(today) == Some(p.date)
    ensures !(p in b.currentDay && p in b.nextDay)
    ensures !(p in b.currentDay && p in b.previousDay)
    ensures !(p in b.nextDay && p in b.previousDay)
  {
    FilterMembership(points, PricedOn(Some(today)), p);
    FilterMembership(points, PricedOn(NextDay(today)), p);
    FilterMembership(points, PricedOn(PrevDay(today)), p);
  }

  /** The spot-price half of `update`: nothing happens unless the session
      check succeeded and the reply is non-empty; then the three bucket
      attributes are replaced together, or the update raises and sets none. */
  method UpdateSpotPrices(s: PricesSensor, authorized: bool, today: Date, reply: SpotReply) returns (r: Result<PricesSensor>)
    requires Valid(today)
    ensures !authorized || reply.NoSpotData? ==> r == Ok(s)
    ensures r.Ok? ==> r.value.currentMonth == s.currentMonth
    ensures authorized && reply.SpotData? && r.Ok? ==>
              && r.value.currentDay == Some(Filter(reply.points, PricedOn(Some(today))))
              && r.value.nextDay == Some(Filter(reply.points, PricedOn(NextDay(today))))
              && r.value.previousDay == Some(Filter(reply.points, PricedOn(PrevDay(today))))
    ensures authorized && reply.SpotData? ==>
              (r.Ok? <==> forall k :: 0 <= k < |reply.points| ==> !Overflows(today, reply.points[k]))
  {
    if !authorized || reply.NoSpotData? {
      return Ok(s);
    }
    var b := BucketSpotPrices(today, reply.points);
    if b.Raise? {
      return Raise(b.error);
    }
    r := Ok(s.(currentDay := Some(b.value.currentDay),
               nextDay := Some(b.value.nextDay),
               previousDay := Some(b.value.previousDay)));
  }

  predicate HasPrice(p: MonthPoint) {
    p.price.Some?
  }

  /** `make_data_attribute("current_month", response, "cost_in_kr")`: a
      falsy response leaves the attribute alone; otherwise it becomes the
      points whose price is not `None`, in order. */
  method MakeDataAttribute(s: PricesSensor, response: Option<seq<MonthPoint>>) returns (s': PricesSensor)
    ensures response.None? ==> s' == s
    ensures response.Some? ==> s' == s.(currentMonth := Some(Filter(response.value, HasPrice)))
    ensures response.Some? ==> forall p :: p in s'.currentMonth.value <==> p in response.value && p.price.Some?
  {
    if response.None? {
      return s;
    }
    var points := response.value;
    var data := [];
    var i := 0;
    while i < |points|
      invariant 0 <= i <= |points|
      invariant data == Filter(points[..i], HasPrice)
    {
      FilterSnoc(points[..i], points[i], HasPrice);
      assert points[..i + 1] == points[..i] + [points[i]];
      assert Kept(points[i], HasPrice) == (if points[i].price.Some? then [points[i]] else []);
      if points[i].price.Some? {
        data := data + [points[i]];
      }
      i := i + 1;
    }
    assert points[..|points|] == points;
    forall p ensures p in data <==> p in points && p.price.Some? {
      FilterMembership(points, HasPrice, p);
    }
    s' := s.(currentMonth := Some(data));
  }
}

=== FILE: setup.dfy ===
/** `async_setup_platform` (`custom_components/greenely/sensor.py`): the
    configuration the sensors are built from, the clamp on the hourly
    offset, and which sensors are created. */
module Setup {
  import opened Base
  import opened Dates
  import opened Shaping
  import opened UsageSensor

  /** The options the platform reads. Unset boolean options read as
      `None`, which is falsy, so they are plain booleans here; the integer
      options are validated as non-negative. */
  datatype Config = Config(
    showUsage: bool,
    showSold: bool,
    showPrices: bool,
    usageDays: nat,
    showHourly: bool,
    hourlyOffsetDays: nat)

  datatype SensorKind = Usage | Sold | Prices

  /** The hourly offset is lowered to `usage_days` when it is larger. */
  function ClampHourlyOffset(offset: nat, usageDays: nat): (r: nat)
    ensures r <= usageDays
    ensures r <= offset
    ensures r == offset || r == usageDays
    ensures offset <= usageDays ==> r == offset
    ensures r < usageDays <==> offset < usageDays
  {
    if offset > usageDays then usageDays else offset
  }

  /** The sensors the platform adds, in the order it adds them: usage,
      sold, prices, each only when its option is set. */
  function Sensors(c: Config): (r: seq<SensorKind>)
    ensures Usage in r <==> c.showUsage
    ensures Sold in r <==> c.showSold
    ensures Prices in r <==> c.showPrices
    ensures forall i, j :: 0 <= i < j < |r| ==> Rank(r[i]) < Rank(r[j])
  {
    (if c.showUsage then [Usage] else [])
    + (if c.showSold then [Sold] else [])
    + (if c.showPrices then [Prices] else [])
  }

  /** Position of a sensor kind in the platform's creation order. */
  function Rank(k: SensorKind): nat {
    match k
    case Usage => 0
    case Sold => 1
    case Prices => 2
  }

  /** The usage sensor as the platform builds it: the configured window,
      the clamped offset, state 0 and no attributes. */
  function NewUsageSensor(c: Config): (s: UsageSensor)
    ensures s.usageDays == c.usageDays && s.showHourly == c.showHourly
    ensures s.hourlyOffsetDays == ClampHourlyOffset(c.hourlyOffsetDays, c.usageDays)
    ensures s.state == Zero && s.hourly.None? && s.days.None?
  {
    UsageSensor(c.usageDays, c.showHourly, ClampHourlyOffset(c.hourlyOffsetDays, c.usageDays), Zero, None, None)
  }

  /** The clamp lets the offset equal `usage_days`, which names the day just
      before the queried window: such a sensor never publishes an hourly
      list, whatever the replies. Only an offset strictly below
      `usage_days` can. */
  lemma HourlyDayInsideWindow(c: Config, today: Date, fetch: Date -> UsageReply)
    requires Valid(today) && c.usageDays <= Ordinal(today)
    ensures var s := NewUsageSensor(c);
            HourlyAfter(s, Window(today, c.usageDays), fetch) != s.hourly
            ==> c.hourlyOffsetDays < c.usageDays
  {
  }
}

=== FILE: shaping.dfy ===
/** Definitions shared by the sensors' attribute shaping: order-preserving
    filtering, which every "append if present" loop in the sensors performs,
    and the two-way state values the sensors publish. */
module Shaping {

  /** The elements of `s` that satisfy `keep`, in their original order. */
  function Filter<T>(s: seq<T>, keep: T -> bool): (r: seq<T>)
    ensures |r| <= |s|
    decreases |s|
  {
    if |s| == 0 then []
    else Filter(s[..|s| - 1], keep) + (if keep(s[|s| - 1]) then [s[|s| - 1]] else [])
  }

  /** `[x]` when `x` is kept, `[]` otherwise. */
  function Kept<T>(x: T, keep: T -> bool): seq<T> {
    if keep(x) then [x] else []
  }

  /** An element is kept exactly when it occurs in the input and satisfies `keep`. */
  lemma {:induction false} FilterMembership<T>(s: seq<T>, keep: T -> bool, x: T)
    ensures x in Filter(s, keep) <==> x in s && keep(x)
    decreases |s|
  {
    if |s| > 0 {
      var init := s[..|s| - 1];
      FilterMembership(init, keep, x);
      assert s == init + [s[|s| - 1]];
    }
  }

  /** Filtering commutes with concatenation, so the relative order of the
      kept elements is the input order. */
  lemma {:induction false} FilterAppend<T>(a: seq<T>, b: seq<T>, keep: T -> bool)
    ensures Filter(a + b, keep) == Filter(a, keep) + Filter(b, keep)
    decreases |b|
  {
    if |b| == 0 {
      assert a + b == a;
    } else {
      var b' := b[..|b| - 1];
      FilterAppend(a, b', keep);
      assert (a + b)[..|a + b| - 1] == a + b';
    }
  }

  /** Extending the input by one element extends the filter by that element
      when it is kept (the step of every filtering loop). */
  lemma FilterSnoc<T>(s: seq<T>, x: T, keep: T -> bool)
    ensures Filter(s + [x], keep) == Filter(s, keep) + Kept(x, keep)
  {
    assert (s + [x])[..|s|] == s;
  }

  /** A sensor value rendered as `str(v / 1000)` when `v` is non-zero and as
      the number `0` otherwise; the model keeps `v` itself (Wh). */
  datatype Reading = Zero | Amount(wh: int)

  function ReadingOf(v: int): (r: Reading)
    ensures r.Zero? <==> v == 0
    ensures r.Amount? ==> r.wh == v
  {
    if v != 0 then Amount(v) else Zero
  }
}

=== FILE: sold_sensor.dfy ===
/** `GreenelySoldSensor.make_attribute` (`custom_components/greenely/sensor.py`):
    the `sold_data` list, one element per entry of the reply, and the total
    sold as the sensor state.

    The reply is a JSON object whose values are the per-period entries; the
    model takes those values in the object's key order. Each entry's
    `localtime` is kept as its text: reading it with `strptime` and
    re-rendering it with the configured date format is not modelled. */
module SoldSensor {
  import opened Base
  import opened Json
  import opened Shaping

  /** An element of `sold_data`: `{date, usage, is_complete}`. */
  datatype SoldMonth = SoldMonth(date: string, usage: Reading, isComplete: Json)

  datatype SoldSensor = SoldSensor(state: Reading, soldData: Option<seq<SoldMonth>>)

  /** The integer Python's arithmetic sees in a `usage` value: numbers, and
      booleans as 0 and 1; anything else fails `usage / 1000` with
      `TypeError`. */
  function UsageNumber(j: Json): Option<int> {
    match j
    case Num(n) => Some(n)
    case Bool(b) => Some(if b then 1 else 0)
    case _ => None
  }

  /** The Wh a rendered reading stands for. */
  function WhOf(r: Reading): int {
    match r
    case Zero => 0
    case Amount(wh) => wh
  }

  /** One turn of the loop body: look up `usage`, read `localtime`, render
      the usage, copy `is_complete` — raising at the first of these steps
      that fails, in that order. */
  function EntryOf(v: Json): (r: Result<SoldMonth>)
    ensures r.Ok? <==> v.Obj? && "usage" in v.fields && "localtime" in v.fields && "is_complete" in v.fields
                       && v.fields["localtime"].Str? && UsageNumber(v.fields["usage"]).Some?
    ensures r.Ok? ==> && r.value.date == v.fields["localtime"].s
                      && WhOf(r.value.usage) == UsageNumber(v.fields["usage"]).value
                      && r.value.usage == ReadingOf(UsageNumber(v.fields["usage"]).value)
                      && r.value.isComplete == v.fields["is_complete"]
    ensures r.Raise? ==>
              r.error == (if !v.Obj? then TypeError
                          else if "usage" !in v.fields || "localtime" !in v.fields then KeyError
                          else if !v.fields["localtime"].Str? || UsageNumber(v.fields["usage"]).None? then TypeError
                          else KeyError)
  {
    var usage :- Lookup(v, "usage");
    var localtime :- Lookup(v, "localtime");
    if !localtime.Str? then Raise(TypeError)
    else if UsageNumber(usage).None? then Raise(TypeError)
    else
      var complete :- Lookup(v, "is_complete");
      Ok(SoldMonth(localtime.s, ReadingOf(UsageNumber(usage).value), complete))
  }

  /** Reference definition of the list: every entry shaped, in order, or
      the error of the first entry that fails. */
  function ShapeAll(values: seq<Json>): Result<seq<SoldMonth>>
    decreases |values|
  {
    if |values| == 0 then Ok([])
    else
      var init :- ShapeAll(values[..|values| - 1]);
      var last :- EntryOf(values[|values| - 1]);
      Ok(init + [last])
  }

  /** The sum of the Wh of a list of months. */
  function TotalSold(months: seq<SoldMonth>): int
    decreases |months|
  {
    if |months| == 0 then 0 else TotalSold(months[..|months| - 1]) + WhOf(months[|months| - 1].usage)
  }

  /** The list succeeds exactly when every entry does, and then holds one
      month per entry, in entry order. */
  lemma {:induction false} ShapeAllPointwise(values: seq<Json>)
    ensures ShapeAll(values).Ok? <==> forall k :: 0 <= k < |values| ==> EntryOf(values[k]).Ok?
    ensures ShapeAll(values).Ok? ==>
              && |ShapeAll(values).value| == |values|
              && forall k :: 0 <= k < |values| ==> ShapeAll(values).value[k] == EntryOf(values[k]).value
    ensures ShapeAll(values).Raise? ==>
              exists k :: 0 <= k < |values| && EntryOf(values[k]) == Raise(ShapeAll(values).error)
    decreases |values|
  {
    if |values| > 0 {
      var init := values[..|values| - 1];
      ShapeAllPointwise(init);
      assert forall k :: 0 <= k < |init| ==> init[k] == values[k];
      if ShapeAll(init).Raise? {
        var k :| 0 <= k < |init| && EntryOf(init[k]) == Raise(ShapeAll(init).error);
        assert EntryOf(values[k]) == Raise(ShapeAll(values).error);
      }
    }
  }

  /** The total of a concatenation is the sum of the totals, so the total
      does not depend on how the entries are grouped. */
  lemma {:induction false} TotalSoldAppend(a: seq<SoldMonth>, b: seq<SoldMonth>)
    ensures TotalSold(a + b) == TotalSold(a) + TotalSold(b)
    decreases |b|
  {
    if |b| == 0 {
      assert a + b == a;
    } else {
      TotalSoldAppend(a, b[..|b| - 1]);
      assert (a + b)[..|a + b| - 1] == a + b[..|b| - 1];
    }
  }

  /** `make_attribute(response)`: it shapes every entry into `sold_data`,
      adds up the usages, and only then sets the state to the total and the
      attribute to the list; an entry that fails raises its error and
      leaves the sensor as it was. */
  method MakeSoldAttribute(s: SoldSensor, values: seq<Json>) returns (r: Result<SoldSensor>)
    ensures r.Ok? <==> ShapeAll(values).Ok?
    ensures r.Raise? ==> r.error == ShapeAll(values).error
    ensures r.Ok? ==>
              && r.value.soldData == Some(ShapeAll(values).value)
              && r.value.state == ReadingOf(TotalSold(ShapeAll(values).value))
  {
    var totalSold := 0;
    var months := [];
    var i := 0;
    while i < |values|
      invariant 0 <= i <= |values|
      invariant ShapeAll(values[..i]) == Ok(months)
      invariant totalSold == TotalSold(months)
    {
      assert values[..i + 1][..i] == values[..i];
      var data := EntryOf(values[i]);
      if data.Raise? {
        ShapeAllPrefixError(values, i + 1, |values|);
        assert values[..|values|] == values;
        return Raise(data.error);
      }
      assert (months + [data.value])[..|months|] == months;
      totalSold := totalSold + WhOf(data.value.usage);
      months := months + [data.value];
      i := i + 1;
    }
    assert values[..|values|] == values;
    r := Ok(s.(state := ReadingOf(totalSold), soldData := Some(months)));
  }

  /** An error in a prefix is the error of every longer prefix. */
  lemma {:induction false} ShapeAllPrefixError(values: seq<Json>, n: nat, m: nat)
    requires n <= m <= |values|
    requires ShapeAll(values[..n]).Raise?
    ensures ShapeAll(values[..m]) == ShapeAll(values[..n])
    decreases m - n
  {
    if n < m {
      ShapeAllPrefixError(values, n, m - 1);
      assert values[..m][..m - 1] == values[..m - 1];
    }
  }
}

=== FILE: text.dfy ===
/** Decimal rendering as Python's `str(int)` and `strftime("%m")` / `"%d"`
    produce it, with a parser to prove the renderings can be read back. */
module Text {

  predicate IsDigit(c: char) {
    '0' <= c <= '9'
  }

  predicate AllDigits(s: string) {
    forall i :: 0 <= i < |s| ==> IsDigit(s[i])
  }

  function DigitChar(k: int): (c: char)
    requires 0 <= k < 10
    ensures IsDigit(c)
  {
    ('0' as int + k) as char
  }

  function DigitValue(c: char): (k: int)
    requires IsDigit(c)
    ensures 0 <= k < 10 && DigitChar(k) == c
  {
    c as int - '0' as int
  }

  /** `str(n)` for a non-negative integer: no sign, no leading zeros. */
  function NatToString(n: nat): (s: string)
    ensures |s| >= 1 && AllDigits(s)
    decreases n
  {
    if n < 10 then [DigitChar(n)] else NatToString(n / 10) + [DigitChar(n % 10)]
  }

  /** `str(i)` for any integer: the decimal digits of `|i|`, after a `-`
      when `i` is negative. */
  function IntToString(i: int): (s: string)
    ensures |s| >= 1
    ensures i >= 0 <==> AllDigits(s)
    ensures i >= 0 ==> ParseDigits(s) == i
    ensures i < 0 ==> s[0] == '-' && AllDigits(s[1..]) && ParseDigits(s[1..]) == -i
  {
    if i < 0 then
      NatToStringRoundTrip(-i);
      assert ("-" + NatToString(-i))[1..] == NatToString(-i);
      assert !IsDigit(("-" + NatToString(-i))[0]);
      "-" + NatToString(-i)
    else
      NatToStringRoundTrip(i);
      NatToString(i)
  }

  /** Two digits with a leading zero, as `%m` and `%d` print months and days. */
  function Pad2(n: nat): (s: string)
    requires n < 100
    ensures |s| == 2 && AllDigits(s)
  {
    [DigitChar(n / 10), DigitChar(n % 10)]
  }

  /** The value of a string of decimal digits (`int(s)`). */
  function ParseDigits(s: string): nat
    requires AllDigits(s)
    decreases |s|
  {
    if |s| == 0 then 0 else 10 * ParseDigits(s[..|s| - 1]) + DigitValue(s[|s| - 1])
  }

  /** `str(n)` reads back as `n`. */
  lemma {:induction false} NatToStringRoundTrip(n: nat)
    ensures ParseDigits(NatToString(n)) == n
    decreases n
  {
    var s := NatToString(n);
    if n >= 10 {
      NatToStringRoundTrip(n / 10);
      assert s[..|s| - 1] == NatToString(n / 10);
    }
  }

  /** `str(n)` has a leading zero only for zero itself. */
  lemma {:induction false} NatToStringCanonical(n: nat)
    ensures NatToString(n)[0] == '0' <==> n == 0
    decreases n
  {
    if n >= 10 {
      NatToStringCanonical(n / 10);
    }
  }

  /** A two-digit field reads back as its value. */
  lemma Pad2RoundTrip(n: nat)
    requires n < 100
    ensures ParseDigits(Pad2(n)) == n
  {
    var s := Pad2(n);
    assert s[..1] == [DigitChar(n / 10)];
    assert s[..1][..0] == [];
    assert ParseDigits(s[..1]) == n / 10;
    assert ParseDigits(s) == 10 * (n / 10) + n % 10;
  }

  /** For a single-digit value `%d` adds a leading zero that `str` does not;
      from ten on the two renderings agree. */
  lemma Pad2VersusStr(n: nat)
    requires 1 <= n < 100
    ensures n < 10 ==> Pad2(n) == "0" + NatToString(n)
    ensures n >= 10 ==> Pad2(n) == NatToString(n)
    ensures Pad2(n) == NatToString(n) <==> n >= 10
  {
    if n >= 10 {
      assert NatToString(n / 10) == [DigitChar(n / 10)];
    }
  }

  // ---------------------------------------------------------------------
  // Splitting at a separator: the parser behind the read-back proofs of
  // the date text (`Urls.ParseDateText`); the client itself splits nothing

  /** Position of the first `c` in `s`, or `|s|` when there is none. */
  function IndexOf(s: string, c: char): (i: nat)
    ensures i <= |s|
    ensures i < |s| ==> s[i] == c
    ensures forall k :: 0 <= k < i ==> s[k] != c
  {
    if |s| == 0 then 0 else if s[0] == c then 0 else 1 + IndexOf(s[1..], c)
  }

  /** The fields of `s` between occurrences of `c`, in order. */
  function Split(s: string, c: char): (parts: seq<string>)
    ensures |parts| >= 1
    decreases |s|
  {
    var i := IndexOf(s, c);
    if i == |s| then [s] else [s[..i]] + Split(s[i + 1..], c)
  }

  /** Splitting a field followed by the separator peels that field off. */
  lemma SplitAfterField(field: string, c: char, rest: string)
    requires c !in field
    ensures Split(field + [c] + rest, c) == [field] + Split(rest, c)
  {
    var s := field + [c] + rest;
    assert s[|field|] == c;
    assert forall k :: 0 <= k < |field| ==> s[k] == field[k];
    assert IndexOf(s, c) == |field|;
    assert s[..|field|] == field;
    assert s[|field| + 1..] == rest;
  }

  /** A field without the separator splits into itself. */
  lemma SplitField(field: string, c: char)
    requires c !in field
    ensures Split(field, c) == [field]
  {
  }

  lemma DigitsHaveNo(s: string, c: char)
    requires AllDigits(s) && !IsDigit(c)
    ensures c !in s
  {
  }

  // ---------------------------------------------------------------------
  // Regrouping concatenations (stated over plain variables so that the
  // solver never has to look inside the pieces)

  lemma Regroup3(p: string, a: string, b: string)
    ensures p + a + b == p + (a + b)
  {
  }

  lemma Regroup6(p: string, a: string, b: string, c: string, d: string, e: string)
    ensures p + a + b + c + d + e == p + (a + b + c + d + e)
  {
  }

  /** `x + (p1 + f) + (p2 + t) + tail` is `x + p1 + f + p2 + t + tail`. */
  lemma RegroupQuery(x: string, p1: string, f: string, p2: string, t: string, tail: string)
    ensures x + (p1 + f) + (p2 + t) + tail == x + p1 + f + p2 + t + tail
  {
  }

  /** The same with a two-piece tail. */
  lemma RegroupQuery2(x: string, p1: string, f: string, p2: string, t: string, s1: string, s2: string)
    ensures x + (p1 + f) + (p2 + t) + s1 + s2 == x + p1 + f + p2 + t + (s1 + s2)
  {
  }
}

=== FILE: urls.dfy ===
/** The query URLs of the Greenely client (`custom_components/greenely/api.py`).

    Each query method renders a date window into a
    `?from=<date>&to=<date>` query string appended to the facility's
    resource path. Dates are written `year-month-day` with the year as
    `str(year)`, the month always as two digits, and the day as two digits
    except in `get_usage`, which writes `str(day)`. The builders below follow
    each method's own string building; the lemmas relate them to one common
    shape and show that every rendered date reads back as the date it came
    from. */
module Urls {
  import opened Base
  import opened Dates
  import opened Text

  const FacilitiesBase := "https://api2.greenely.com/v1/facilities/"

  const PriceDataSuffix := "&resolution=daily&unit=currency&operation=sum"

  datatype Resolution = Hourly | Daily

  /** `"hourly" if showHourly else "daily"`. */
  function ResolutionFor(showHourly: bool): (r: Resolution)
    ensures r == Hourly <==> showHourly
  {
    if showHourly then Hourly else Daily
  }

  function ResolutionName(r: Resolution): string {
    match r
    case Hourly => "hourly"
    case Daily => "daily"
  }

  // ---------------------------------------------------------------------
  // Date text

  /** The day field: `strftime("%d")` when padded, `str(day)` otherwise. */
  function DayText(day: nat, padDay: bool): string
    requires day < 100
  {
    if padDay then Pad2(day) else NatToString(day)
  }

  /** `str(d.year) + "-" + d.strftime("%m") + "-" + <day field>`. */
  function DateText(d: Date, padDay: bool): string
    requires Valid(d)
  {
    NatToString(d.year) + "-" + Pad2(d.month) + "-" + DayText(d.day, padDay)
  }

  /** Reads a `year-month-day` text back (the inverse of `DateText`). */
  function ParseDateText(s: string): Option<Date> {
    var parts := Split(s, '-');
    if |parts| == 3
       && |parts[0]| > 0 && AllDigits(parts[0])
       && |parts[1]| > 0 && AllDigits(parts[1])
       && |parts[2]| > 0 && AllDigits(parts[2])
    then Some(Date(ParseDigits(parts[0]), ParseDigits(parts[1]), ParseDigits(parts[2])))
    else None
  }

  /** Every rendered date, padded or not, reads back as the date itself, so
      the `from` and `to` values denote exactly the window's dates. */
  lemma DateTextRoundTrip(d: Date, padDay: bool)
    requires Valid(d)
    ensures ParseDateText(DateText(d, padDay)) == Some(d)
  {
    DateTextFields(d, padDay);
    NatToStringRoundTrip(d.year);
    Pad2RoundTrip(d.month);
    if padDay {
      Pad2RoundTrip(d.day);
    } else {
      NatToStringRoundTrip(d.day);
    }
  }

  /** A rendered date splits at its dashes into its three fields. */
  lemma DateTextFields(d: Date, padDay: bool)
    requires Valid(d)
    ensures Split(DateText(d, padDay), '-') == [NatToString(d.year), Pad2(d.month), DayText(d.day, padDay)]
  {
    var y, m, dd := NatToString(d.year), Pad2(d.month), DayText(d.day, padDay);
    DigitsHaveNo(y, '-');
    DigitsHaveNo(m, '-');
    DigitsHaveNo(dd, '-');
    assert DateText(d, padDay) == y + ['-'] + (m + ['-'] + dd);
    SplitAfterField(y, '-', m + ['-'] + dd);
    SplitAfterField(m, '-', dd);
    SplitField(dd, '-');
  }

  /** The padded and unpadded renderings differ exactly on days 1..9, where
      the padded one has the extra leading zero; the month is always two
      digits. */
  lemma DateTextPadding(d: Date)
    requires Valid(d)
    ensures DateText(d, true) == DateText(d, false) <==> d.day >= 10
    ensures |DateText(d, true)| == |NatToString(d.year)| + 6
    ensures d.day < 10 ==> |DateText(d, false)| == |NatToString(d.year)| + 5
  {
    Pad2VersusStr(d.day);
    var prefix := NatToString(d.year) + "-" + Pad2(d.month) + "-";
    assert DateText(d, true) == prefix + Pad2(d.day);
    assert DateText(d, false) == prefix + NatToString(d.day);
    if DateText(d, true) == DateText(d, false) {
      assert Pad2(d.day) == DateText(d, true)[|prefix|..];
      assert NatToString(d.day) == DateText(d, false)[|prefix|..];
    }
  }

  // ---------------------------------------------------------------------
  // The common URL shape

  /** `facilities_base + facility_id + resource + "?from=" + from + "&to=" + to + suffix`. */
  function QueryUrl(facilityId: string, resource: string, from: string, to: string, suffix: string): string {
    FacilitiesBase + facilityId + resource + "?from=" + from + "&to=" + to + suffix
  }

  // ---------------------------------------------------------------------
  // The four builders, as each method writes them

  /** `get_price_data`: the current month, from its first day to the first
      day of the next month found by adding 32 days. */
  function PriceDataUrl(facilityId: string, today: Date): (url: Option<string>)
    requires Valid(today)
    ensures url.Some? <==> today.year < MaxYear || today.month < 12
  {
    NextMonthByDaysIsNextMonth(today);
    match NextMonthByDays(today)
    case None => None
    case Some(nextMonth) =>
      var start := "?from=" + NatToString(today.year) + "-" + Pad2(today.month) + "-01";
      var end := "&to=" + NatToString(nextMonth.year) + "-" + Pad2(nextMonth.month) + "-01";
      Some(FacilitiesBase + facilityId + "/consumption" + start + end + PriceDataSuffix)
  }

  /** `get_spot_price`: from yesterday to the day after tomorrow, hourly. */
  function SpotPriceUrl(facilityId: string, today: Date): (url: Option<string>)
    requires Valid(today)
    ensures url.Some? <==> 2 <= Ordinal(today) && Ordinal(today) + 2 <= MaxOrdinal
  {
    match AddDays(today, -1)
    case None => None
    case Some(yesterday) =>
      match AddDays(today, 2)
      case None => None
      case Some(tomorrow) =>
        var start := "?from=" + NatToString(yesterday.year) + "-" + Pad2(yesterday.month) + "-" + Pad2(yesterday.day);
        var end := "&to=" + NatToString(tomorrow.year) + "-" + Pad2(tomorrow.month) + "-" + Pad2(tomorrow.day);
        Some(FacilitiesBase + facilityId + "/spot-price" + start + end + "&resolution=hourly")
  }

  /** `get_usage`: the caller's dates, with the day written by `str`.
      The URL asks for exactly those dates, day unpadded, at the resolution
      the flag selects. */
  function UsageUrl(facilityId: string, startDate: Date, endDate: Date, showHourly: bool): (url: string)
    requires Valid(startDate) && Valid(endDate)
    ensures url == QueryUrl(facilityId, "/consumption", DateText(startDate, false), DateText(endDate, false),
                            "&resolution=" + ResolutionName(ResolutionFor(showHourly)))
  {
    var start := "?from=" + NatToString(startDate.year) + "-" + Pad2(startDate.month) + "-" + NatToString(startDate.day);
    var end := "&to=" + NatToString(endDate.year) + "-" + Pad2(endDate.month) + "-" + NatToString(endDate.day);
    var resolution := if showHourly then "hourly" else "daily";
    DateFieldText("?from=", startDate, false);
    DateFieldText("&to=", endDate, false);
    RegroupQuery2(FacilitiesBase + facilityId + "/consumption", "?from=", DateText(startDate, false),
                  "&to=", DateText(endDate, false), "&resolution=", ResolutionName(ResolutionFor(showHourly)));
    FacilitiesBase + facilityId + "/consumption" + start + end + "&resolution=" + resolution
  }

  /** `get_produced_electricity`: the caller's dates, day zero-padded. The
      URL asks for exactly those dates at the resolution the flag selects. */
  function ProducedUrl(facilityId: string, startDate: Date, endDate: Date, showHourly: bool): (url: string)
    requires Valid(startDate) && Valid(endDate)
    ensures url == QueryUrl(facilityId, "/produced-electricity", DateText(startDate, true), DateText(endDate, true),
                            "&resolution=" + ResolutionName(ResolutionFor(showHourly)))
  {
    var start := "?from=" + NatToString(startDate.year) + "-" + Pad2(startDate.month) + "-" + Pad2(startDate.day);
    var end := "&to=" + NatToString(endDate.year) + "-" + Pad2(endDate.month) + "-" + Pad2(endDate.day);
    var resolution := if showHourly then "hourly" else "daily";
    DateFieldText("?from=", startDate, true);
    DateFieldText("&to=", endDate, true);
    RegroupQuery2(FacilitiesBase + facilityId + "/produced-electricity", "?from=", DateText(startDate, true),
                  "&to=", DateText(endDate, true), "&resolution=", ResolutionName(ResolutionFor(showHourly)));
    FacilitiesBase + facilityId + "/produced-electricity" + start + end + "&resolution=" + resolution
  }

  // ---------------------------------------------------------------------
  // What the builders request

  /** The price-data window is exactly the current calendar month: it starts
      on day 1 of today's month and ends on day 1 of the next calendar month
      (January of the next year after December). Only December 9999 has no
      next month, and there the method raises. */
  lemma PriceDataQuery(facilityId: string, today: Date)
    requires Valid(today)
    ensures PriceDataUrl(facilityId, today).Some? <==> today.year < MaxYear || today.month < 12
    ensures PriceDataUrl(facilityId, today).Some? ==>
              var to := FirstOfNextMonth(today).value;
              && Ordinal(to) == Ordinal(FirstOfMonth(today)) + DaysInMonth(today.year, today.month)
              && PriceDataUrl(facilityId, today).value
                 == QueryUrl(facilityId, "/consumption", DateText(FirstOfMonth(today), true), DateText(to, true), PriceDataSuffix)
  {
    NextMonthByDaysIsNextMonth(today);
    FirstOfNextMonthSpan(today);
    if FirstOfNextMonth(today).Some? {
      var from, to := FirstOfMonth(today), FirstOfNextMonth(today).value;
      MonthStartText("?from=", from);
      MonthStartText("&to=", to);
      RegroupQuery(FacilitiesBase + facilityId + "/consumption", "?from=", DateText(from, true),
                   "&to=", DateText(to, true), PriceDataSuffix);
    }
  }

  /** `p + str(year) + "-" + "%m" + "-01"` is `p` followed by the padded text of the month's first day. */
  lemma MonthStartText(p: string, d: Date)
    requires Valid(d) && d.day == 1
    ensures p + NatToString(d.year) + "-" + Pad2(d.month) + "-01" == p + DateText(d, true)
  {
    assert "-01" == "-" + Pad2(1);
    Regroup3(p + NatToString(d.year) + "-" + Pad2(d.month), "-", Pad2(1));
    Regroup6(p, NatToString(d.year), "-", Pad2(d.month), "-", Pad2(1));
  }

  /** `p + str(year) + "-" + month + "-" + day` is `p` followed by the date text. */
  lemma DateFieldText(p: string, d: Date, padDay: bool)
    requires Valid(d)
    ensures p + NatToString(d.year) + "-" + Pad2(d.month) + "-" + DayText(d.day, padDay) == p + DateText(d, padDay)
  {
    Regroup6(p, NatToString(d.year), "-", Pad2(d.month), "-", DayText(d.day, padDay));
  }

  /** The spot-price window runs from today−1 to today+2 by the calendar,
      across month and year ends, with month and day zero-padded; it raises
      only where one of those days falls outside the years 1..9999. */
  lemma SpotPriceQuery(facilityId: string, today: Date)
    requires Valid(today)
    ensures SpotPriceUrl(facilityId, today).Some? <==> 2 <= Ordinal(today) && Ordinal(today) + 2 <= MaxOrdinal
    ensures SpotPriceUrl(facilityId, today).Some? ==>
              var from, to := AddDays(today, -1).value, AddDays(today, 2).value;
              && Valid(from) && Ordinal(from) == Ordinal(today) - 1
              && Valid(to) && Ordinal(to) == Ordinal(today) + 2
              && SpotPriceUrl(facilityId, today).value
                 == QueryUrl(facilityId, "/spot-price", DateText(from, true), DateText(to, true), "&resolution=hourly")
  {
    if SpotPriceUrl(facilityId, today).Some? {
      var from, to := AddDays(today, -1).value, AddDays(today, 2).value;
      DateFieldText("?from=", from, true);
      DateFieldText("&to=", to, true);
      RegroupQuery(FacilitiesBase + facilityId + "/spot-price", "?from=", DateText(from, true),
                   "&to=", DateText(to, true), "&resolution=hourly");
    }
  }
}

=== FILE: usage_sensor.dfy ===
/** `GreenelyUsageSensor` (`custom_components/greenely/sensor.py`): daily
    usage totals over the last `usage_days` days, yesterday's total as the
    sensor state, and the hourly list of one chosen day.

    The API is the parameter `fetch`, the reply for each queried date; a
    usage point is one element of the reply's `"points"`. Usage values stay
    in Wh (the sensor divides them by 1000 for display). */
module UsageSensor {
  import opened Base
  import opened Dates
  import opened Shaping

  datatype UsagePoint = UsagePoint(timestamp: int, usage: Option<int>)

  /** The reply for one day: `{}` (falsy) or a body carrying `"points"`. */
  datatype UsageReply = NoUsage | UsageData(points: seq<UsagePoint>)

  /** An element of the `days` attribute: `{date, usage}`. */
  datatype DayUsage = DayUsage(date: Date, usage: int)

  /** An element of the `hourly` attribute: `{time, usage}`. */
  datatype HourlyUsage = HourlyUsage(timestamp: int, usage: int)

  datatype UsageSensor = UsageSensor(
    usageDays: nat,
    showHourly: bool,
    hourlyOffsetDays: nat,
    state: Reading,
    hourly: Option<seq<HourlyUsage>>,
    days: Option<seq<DayUsage>>)

  /** The configuration part of a sensor is never changed by an update. */
  predicate SameConfig(a: UsageSensor, b: UsageSensor) {
    a.usageDays == b.usageDays && a.showHourly == b.showHourly && a.hourlyOffsetDays == b.hourlyOffsetDays
  }

  /** The sum of the usages that are present (not `None`). */
  function PresentTotal(points: seq<UsagePoint>): int
    decreases |points|
  {
    if |points| == 0 then 0
    else PresentTotal(points[..|points| - 1]) + (match points[|points| - 1].usage case Some(u) => u case None => 0)
  }

  /** The value a point contributes as the loop sees it: its usage unless
      that is `None` or 0. */
  function Counted(p: UsagePoint): int {
    if p.usage.Some? && p.usage.value != 0 then p.usage.value else 0
  }

  /** The hourly entry of a point: its usage, or 0 when `None` or 0. */
  function HourlyEntry(p: UsagePoint): HourlyUsage {
    HourlyUsage(p.timestamp, Counted(p))
  }

  function HourlyEntries(points: seq<UsagePoint>): (r: seq<HourlyUsage>)
    ensures |r| == |points|
    ensures forall k :: 0 <= k < |points| ==> r[k] == HourlyEntry(points[k])
    decreases |points|
  {
    if |points| == 0 then [] else HourlyEntries(points[..|points| - 1]) + [HourlyEntry(points[|points| - 1])]
  }

  /** The loop of `make_attribute` over the points: it adds every usage
      that is neither `None` nor 0 to the daily total, and, when `collect`
      (the date is the hourly day), lists every point's hourly entry. Skipping
      the zeros changes nothing: the total is the sum of all present usages. */
  method ScanPoints(points: seq<UsagePoint>, collect: bool) returns (daily: int, hourlyData: seq<HourlyUsage>)
    ensures daily == PresentTotal(points)
    ensures hourlyData == (if collect then HourlyEntries(points) else [])
  {
    daily := 0;
    hourlyData := [];
    var i := 0;
    while i < |points|
      invariant 0 <= i <= |points|
      invariant daily == PresentTotal(points[..i])
      invariant hourlyData == (if collect then HourlyEntries(points[..i]) else [])
    {
      assert points[..i + 1][..i] == points[..i];
      var p := points[i];
      if collect {
        hourlyData := hourlyData + [HourlyEntry(p)];
      }
      if p.usage.Some? && p.usage.value != 0 {
        daily := daily + p.usage.value;
      }
      i := i + 1;
    }
    assert points[..|points|] == points;
  }

  /** What `make_attribute` returns and leaves in the sensor. */
  datatype Shaped = Shaped(sensor: UsageSensor, day: Option<DayUsage>)

  /** Yesterday and the hourly day `today - hourly_offset_days` both exist
      (Python raises `OverflowError` computing either before year 1). */
  predicate ReferenceDaysExist(today: Date, offset: nat)
    requires Valid(today)
  {
    PrevDay(today).Some? && AddDays(today, -(offset as int)).Some?
  }

  /** The reference days exist exactly when today is neither the first
      representable date nor within `offset` days of it. */
  lemma ReferenceDaysInRange(today: Date, offset: nat)
    requires Valid(today)
    ensures ReferenceDaysExist(today, offset) <==> Ordinal(today) > 1 && Ordinal(today) > offset
  {
    OrdinalRange(today);
    OrdinalEnds(today);
  }

  /** The two days `make_attribute` compares against: yesterday and the
      hourly day. */
  method ReferenceDays(today: Date, offset: nat) returns (r: Result<(Date, Date)>)
    requires Valid(today)
    ensures r.Raise? <==> !ReferenceDaysExist(today, offset)
    ensures r.Raise? ==> r.error == OverflowError
    ensures r.Ok? ==> PrevDay(today) == Some(r.value.0) && AddDays(today, -(offset as int)) == Some(r.value.1)
  {
    var yesterday := PrevDay(today);
    if yesterday.None? {
      return Raise(OverflowError);
    }
    var hourlyDay := AddDays(today, -(offset as int));
    if hourlyDay.None? {
      return Raise(OverflowError);
    }
    r := Ok((yesterday.value, hourlyDay.value));
  }

  /** `make_attribute(date, today, response)`. It first computes yesterday
      and the hourly day `today - hourly_offset_days` (raising
      `OverflowError` when either is before year 1). It returns the date and
      total when the total is non-zero and `{}` otherwise; it sets the state
      to the total only when `date` is yesterday, and the hourly list only
      when `date` is the hourly day and hourly display is on. */
  method MakeAttribute(s: UsageSensor, date: Date, today: Date, points: seq<UsagePoint>) returns (r: Result<Shaped>)
    requires Valid(today)
    ensures r.Raise? <==> !ReferenceDaysExist(today, s.hourlyOffsetDays)
    ensures r.Raise? ==> r.error == OverflowError
    ensures r.Ok? ==>
              var total := PresentTotal(points);
              && r.value.day == (if total != 0 then Some(DayUsage(date, total)) else None)
              && r.value.sensor.state == (if PrevDay(today) == Some(date) then ReadingOf(total) else s.state)
              && r.value.sensor.hourly
                 == (if AddDays(today, -(s.hourlyOffsetDays as int)) == Some(date) && s.showHourly
                     then Some(HourlyEntries(points)) else s.hourly)
              && SameConfig(r.value.sensor, s)
              && r.value.sensor.days == s.days
  {
    var reference := ReferenceDays(today, s.hourlyOffsetDays);
    if reference.Raise? {
      return Raise(reference.error);
    }
    var (yesterday, hourlyDay) := reference.value;
    var daily, hourlyData := ScanPoints(points, date == hourlyDay);
    var s' := s;
    if date == yesterday {
      s' := s'.(state := ReadingOf(daily));
    }
    if date == hourlyDay && s.showHourly {
      s' := s'.(hourly := Some(hourlyData));
    }
    r := Ok(Shaped(s', if daily != 0 then Some(DayUsage(date, daily)) else None));
  }

  // ---------------------------------------------------------------------
  // The update

  /** The dates the update queries, in order: today, today−1, …, today−(n−1). */
  function Window(today: Date, n: nat): (w: seq<Date>)
    requires Valid(today) && n <= Ordinal(today)
    ensures |w| == n
  {
    if n == 0 then []
    else
      OrdinalRange(today);
      var earlier := Window(today, n - 1);
      var d := AddDays(today, -((n - 1) as int));
      assert d.Some?;
      earlier + [d.value]
  }

  /** The `days` entry a date contributes: its total, when the reply is
      non-empty and the total non-zero. */
  function DayEntry(d: Date, reply: UsageReply): seq<DayUsage> {
    match reply
    case NoUsage => []
    case UsageData(points) =>
      if PresentTotal(points) != 0 then [DayUsage(d, PresentTotal(points))] else []
  }

  /** The `days` attribute for the queried dates, in query order. */
  function UsageDays(dates: seq<Date>, fetch: Date -> UsageReply): seq<DayUsage>
    decreases |dates|
  {
    if |dates| == 0 then []
    else UsageDays(dates[..|dates| - 1], fetch) + DayEntry(dates[|dates| - 1], fetch(dates[|dates| - 1]))
  }

  /** The state after the update: yesterday's total when yesterday was
      queried with a non-empty reply, else the previous state. */
  function StateAfter(s: UsageSensor, dates: seq<Date>, fetch: Date -> UsageReply): Reading {
    if |dates| >= 2 && fetch(dates[1]).UsageData? then ReadingOf(PresentTotal(fetch(dates[1]).points))
    else s.state
  }

  /** The hourly list after the update: the hourly day's points when that
      day was queried with a non-empty reply and hourly display is on, else
      the previous list. */
  function HourlyAfter(s: UsageSensor, dates: seq<Date>, fetch: Date -> UsageReply): Option<seq<HourlyUsage>> {
    if s.showHourly && s.hourlyOffsetDays < |dates| && fetch(dates[s.hourlyOffsetDays]).UsageData?
    then Some(HourlyEntries(fetch(dates[s.hourlyOffsetDays]).points))
    else s.hourly
  }

  /** No queried date got a non-empty reply. */
  predicate AllEmpty(dates: seq<Date>, fetch: Date -> UsageReply) {
    forall k :: 0 <= k < |dates| ==> fetch(dates[k]).NoUsage?
  }

  /** One turn of the update loop for the `i`-th queried date `day`: a
      non-empty reply is shaped by `make_attribute`, whose non-empty result
      is appended to `days`. */
  method QueryDay(cur: UsageSensor, days: seq<DayUsage>, today: Date, i: nat, day: Date, reply: UsageReply)
    returns (r: Result<(UsageSensor, seq<DayUsage>)>)
    requires Valid(today) && Valid(day) && Ordinal(day) == Ordinal(today) - i
    ensures r.Raise? <==> reply.UsageData? && !ReferenceDaysExist(today, cur.hourlyOffsetDays)
    ensures r.Raise? ==> r.error == OverflowError
    ensures r.Ok? ==>
              && r.value.1 == days + DayEntry(day, reply)
              && SameConfig(r.value.0, cur) && r.value.0.days == cur.days
              && r.value.0.state
                 == (if i == 1 && reply.UsageData? then ReadingOf(PresentTotal(reply.points)) else cur.state)
              && r.value.0.hourly
                 == (if i == cur.hourlyOffsetDays && reply.UsageData? && cur.showHourly
                     then Some(HourlyEntries(reply.points)) else cur.hourly)
  {
    if reply.NoUsage? {
      return Ok((cur, days));
    }
    var shaped := MakeAttribute(cur, day, today, reply.points);
    if shaped.Raise? {
      return Raise(shaped.error);
    }
    SameDayIffSameDistance(today, day, i, PrevDay(today), 1);
    SameDayIffSameDistance(today, day, i, AddDays(today, -(cur.hourlyOffsetDays as int)), cur.hourlyOffsetDays);
    var entry := shaped.value.day;
    r := Ok((shaped.value.sensor, if entry.Some? then days + [entry.value] else days));
  }

  /** Two days at distances `i` and `j` before today are equal exactly when
      the distances are. */
  lemma SameDayIffSameDistance(today: Date, day: Date, i: int, other: Option<Date>, j: int)
    requires Valid(today) && Valid(day) && Ordinal(day) == Ordinal(today) - i
    requires other.Some? ==> Valid(other.value) && Ordinal(other.value) == Ordinal(today) - j
    ensures other.Some? ==> (other == Some(day) <==> i == j)
  {
    if other.Some? && i == j {
      OrdinalInjective(other.value, day);
    }
  }

  /** The update gets through every queried date: the window stays within
      the date range, and yesterday and the hourly day exist unless no
      queried date returned data (only `make_attribute` computes them). */
  predicate UpdateSucceeds(s: UsageSensor, today: Date, fetch: Date -> UsageReply)
    requires Valid(today)
  {
    && s.usageDays <= Ordinal(today)
    && (ReferenceDaysExist(today, s.hourlyOffsetDays) || AllEmpty(Window(today, s.usageDays), fetch))
  }

  /** What the update has built after querying its first `i` dates. */
  predicate UpdateProgress(s: UsageSensor, today: Date, fetch: Date -> UsageReply, i: nat,
                           queried: seq<Date>, days: seq<DayUsage>, cur: UsageSensor)
    requires Valid(today)
  {
    && i <= s.usageDays && i <= Ordinal(today)
    && queried == Window(today, i)
    && days == UsageDays(queried, fetch)
    && SameConfig(cur, s) && cur.days == s.days
    && cur.state == StateAfter(s, queried, fetch)
    && cur.hourly == HourlyAfter(s, queried, fetch)
    && (AllEmpty(queried, fetch) || ReferenceDaysExist(today, s.hourlyOffsetDays))
  }

  /** One turn of the update loop: query `today - i` and shape the reply. */
  method UpdateStep(s: UsageSensor, today: Date, fetch: Date -> UsageReply, i: nat,
                    queried: seq<Date>, days: seq<DayUsage>, cur: UsageSensor)
    returns (queried': seq<Date>, days': seq<DayUsage>, cur': UsageSensor, r: Result<()>)
    requires Valid(today) && i < s.usageDays
    requires UpdateProgress(s, today, fetch, i, queried, days, cur)
    ensures SameConfig(cur', s) && cur'.days == s.days
    ensures r.Ok? ==> UpdateProgress(s, today, fetch, i + 1, queried', days', cur')
    ensures r.Raise? ==> r.error == OverflowError && !UpdateSucceeds(s, today, fetch)
  {
    var day := AddDays(today, -(i as int));
    if day.None? {
      OrdinalRange(today);
      assert Ordinal(today) <= i;
      return queried, days, cur, Raise(OverflowError);
    }
    queried' := queried + [day.value];
    var step := QueryDay(cur, days, today, i, day.value, fetch(day.value));
    if step.Raise? {
      if s.usageDays <= Ordinal(today) {
        WindowAt(today, s.usageDays, i);
      }
      return queried', days, cur, Raise(OverflowError);
    }
    days', cur' := step.value.1, step.value.0;
    ProgressStep(s, today, fetch, i, queried, days, cur, day.value, days', cur');
    r := Ok(());
  }

  /** Querying `today - i` and shaping its reply extends the progress of
      the update by one date. */
  lemma ProgressStep(s: UsageSensor, today: Date, fetch: Date -> UsageReply, i: nat,
                     queried: seq<Date>, days: seq<DayUsage>, cur: UsageSensor,
                     day: Date, days': seq<DayUsage>, cur': UsageSensor)
    requires Valid(today) && i < s.usageDays
    requires UpdateProgress(s, today, fetch, i, queried, days, cur)
    requires AddDays(today, -(i as int)) == Some(day)
    requires days' == days + DayEntry(day, fetch(day))
    requires SameConfig(cur', cur) && cur'.days == cur.days
    requires cur'.state
             == (if i == 1 && fetch(day).UsageData? then ReadingOf(PresentTotal(fetch(day).points)) else cur.state)
    requires cur'.hourly
             == (if i == cur.hourlyOffsetDays && fetch(day).UsageData? && cur.showHourly
                 then Some(HourlyEntries(fetch(day).points)) else cur.hourly)
    requires fetch(day).UsageData? ==> ReferenceDaysExist(today, s.hourlyOffsetDays)
    ensures UpdateProgress(s, today, fetch, i + 1, queried + [day], days', cur')
  {
    assert queried + [day] == Window(today, i + 1);
    DaysExtend(queried, fetch, day);
    AfterExtend(s, fetch, queried, day);
    AllEmptyExtend(queried, fetch, day);
  }

  /** The `days` built from the queried dates grow with one more date as
      the loop body extends them. */
  lemma DaysExtend(queried: seq<Date>, fetch: Date -> UsageReply, day: Date)
    ensures UsageDays(queried + [day], fetch) == UsageDays(queried, fetch) + DayEntry(day, fetch(day))
  {
    assert (queried + [day])[..|queried|] == queried;
  }

  /** The state and hourly list built from the queried dates change with one
      more date only where that date is yesterday or the hourly day. */
  lemma AfterExtend(s: UsageSensor, fetch: Date -> UsageReply, queried: seq<Date>, day: Date)
    ensures StateAfter(s, queried + [day], fetch)
            == (if |queried| == 1 && fetch(day).UsageData? then ReadingOf(PresentTotal(fetch(day).points))
                else StateAfter(s, queried, fetch))
    ensures HourlyAfter(s, queried + [day], fetch)
            == (if |queried| == s.hourlyOffsetDays && fetch(day).UsageData? && s.showHourly
                then Some(HourlyEntries(fetch(day).points)) else HourlyAfter(s, queried, fetch))
  {
    var queried' := queried + [day];
    assert queried'[|queried|] == day;
    if 1 < |queried| {
      assert queried'[1] == queried[1];
    }
    if s.hourlyOffsetDays < |queried| {
      assert queried'[s.hourlyOffsetDays] == queried[s.hourlyOffsetDays];
    }
  }

  /** No reply so far had data exactly when none before did and this one
      has none either. */
  lemma AllEmptyExtend(queried: seq<Date>, fetch: Date -> UsageReply, day: Date)
    ensures AllEmpty(queried + [day], fetch) <==> AllEmpty(queried, fetch) && fetch(day).NoUsage?
  {
    var queried' := queried + [day];
    assert queried'[|queried|] == day;
    if !AllEmpty(queried, fetch) {
      var k :| 0 <= k < |queried| && !fetch(queried[k]).NoUsage?;
      assert queried'[k] == queried[k];
    }
  }

  /** `update`: when the session check succeeded, it queries today,
      today−1, …, today−(usage_days−1) in that order, builds `days` from the
      non-empty results, sets the state from yesterday and the hourly list
      from the hourly day. It raises `OverflowError` only when the window or
      (for a non-empty reply) yesterday or the hourly day falls before year
      1, and then leaves `days` as it was. */
  method Update(s: UsageSensor, authorized: bool, today: Date, fetch: Date -> UsageReply)
    returns (s': UsageSensor, queried: seq<Date>, r: Result<()>)
    requires Valid(today)
    ensures !authorized ==> s' == s && queried == [] && r == Ok(())
    ensures SameConfig(s', s)
    ensures r.Raise? ==> r.error == OverflowError && s'.days == s.days
    ensures authorized ==> (r.Ok? <==> UpdateSucceeds(s, today, fetch))
    ensures authorized && r.Ok? ==>
              && s.usageDays <= Ordinal(today)
              && queried == Window(today, s.usageDays)
              && s'.days == Some(UsageDays(queried, fetch))
              && s'.state == StateAfter(s, queried, fetch)
              && s'.hourly == HourlyAfter(s, queried, fetch)
  {
    if !authorized {
      return s, [], Ok(());
    }
    OrdinalRange(today);
    var cur := s;
    var days := [];
    queried := [];
    var i := 0;
    while i < s.usageDays
      invariant UpdateProgress(s, today, fetch, i, queried, days, cur)
    {
      var step;
      queried, days, cur, step := UpdateStep(s, today, fetch, i, queried, days, cur);
      if step.Raise? {
        return cur, queried, step;
      }
      i := i + 1;
    }
    s' := cur.(days := Some(days));
    r := Ok(());
  }

  /** The `k`-th queried date is `today - k`. */
  lemma WindowAt(today: Date, n: nat, k: nat)
    requires Valid(today) && k < n <= Ordinal(today)
    ensures AddDays(today, -(k as int)) == Some(Window(today, n)[k])
  {
    WindowOrdinal(today, n, k);
    AddDaysExact(today, -(k as int), Window(today, n)[k]);
  }

  /** The `k`-th queried date is valid and `k` days before today. */
  lemma {:induction false} WindowOrdinal(today: Date, n: nat, k: nat)
    requires Valid(today) && k < n <= Ordinal(today)
    ensures Valid(Window(today, n)[k]) && Ordinal(Window(today, n)[k]) == Ordinal(today) - k
    decreases n
  {
    OrdinalRange(today);
    var shifted := AddDays(today, -((n - 1) as int));
    assert Window(today, n) == Window(today, n - 1) + [shifted.value];
    if k < n - 1 {
      WindowOrdinal(today, n - 1, k);
    }
  }
}
